=== FILE: README.md ===
# Passwordless sign-up and SMS login, modelled in Dafny

This project models the deterministic core of the pandasdb sign-up system, a set of
serverless handlers in front of a managed identity provider (Cognito) and an SMS
gateway (SNS), together with the helpers of its browser client:

- **Phone one-time codes, temporary-password strategy** (`PhoneOtp`, `OtpCode`). The handler
  cleans the number and draws a six-digit code. It stores the code plus `"A!"` as the user's
  temporary password (creating the user, or overwriting the password when the username is
  taken) and texts the code. Confirm signs in with the code plus `"A!"`; when the provider
  demands a new password, it answers with a random permanent one. Resend overwrites the
  temporary password and texts a new code.
- **Phone one-time codes, custom-challenge strategy** (`ChallengeTriggers`, `AuthHandlers`).
  There are three provider triggers:
  - *define* decides between challenging, issuing tokens and failing;
  - *create* draws the code and keeps it in the private parameters, which only *verify*
    sees; the public parameter the client sees is the user's phone;
  - *verify* compares the answer.

  Around them sit the handler that starts the flow (creating an unknown user and retrying
  once) and the handler that maps the challenge answer to a response.
- **Account handlers** (`AuthHandlers`): how `VERIFICATION_TYPE` chooses the username and the
  attributes at sign-up, and the username the other five handlers send.
- **Email handlers** (`EmailAuth`): the username encoding `email.replace('@', '_at_').replace(/\./g, '_')`
  and which handlers use it.
- **Browser client** (`FrontendAuth`, `FrontendPhoneAuth`):
  - `formatPhoneNumber`, `isValidEmail` and `validatePassword`;
  - the live formatter of the number field, the code-field sanitiser and auto-submit;
  - the `phoneAuthState` record driven by sign-in, verify and resend.

## How the model is built

- Every call to the provider or the SMS gateway is a parameter: `Outcome` (done or threw a named
  fault) or `AuthOutcome` (a reply, with or without a challenge, session and tokens, or a
  fault). A handler is a pure function returning `Run(steps, response)`: the calls it made, in
  order, each marked with whether it succeeded, and the HTTP response.
- Every user the handlers create is created with `MessageAction: 'SUPPRESS'`
  (`suppressInvitation` in the request record), so the provider sends no invitation of its
  own carrying the temporary password.
- The provider's user store is a `Directory`, a map from username to current password.
  `Provider.Apply` replays only the writes the handlers make, and `Provider.Accepts` is a
  password sign-in against that map. Nothing the handlers do not contain is assumed (no
  expiry, no single-use codes, no attempt limits).
- `Math.floor(100000 + Math.random() * 900000)` is a `CodeDraw`, an integer in [0, 900000)
  chosen by the caller. Random passwords are opaque string parameters.
- Strings are `seq<char>`. `\s` is the JavaScript whitespace set, and `\d` is `0-9`.

Where the code and its stated intent differ, the model follows the code:

- Cleaning keeps every `'+'`, not just a leading one.
- Codes run from 100000 to 999999 and are never zero-padded.
- A failed SMS after a successful write leaves the new code stored and usable
  (`PhoneOtp.DeliveryFailureKeepsCode`).
- The confirm handler of the custom flow answers 400 `InvalidCode` when the reply has no tokens.
- The temporary-password confirm answers 200 even when the provider returns no tokens.
- The temporary-password confirm ignores the request's `session` field.
- The browser's resend calls the initiate endpoint, not the resend endpoint.

## Model

| member | source | states |
|---|---|---|
| Text.Filter | src/handlers/phone-auth.js:40 | a global replace of a character class by "" leaves only characters outside the class, and never lengthens the string |
| Text.FilterSelects | src/handlers/phone-auth.js:40 | that replace only deletes: the result is a subsequence of the input, every kept character occurs as often as in the input, every removed one not at all |
| Text.Contains | frontend-example/js/phone-auth.js:138 | `includes` holds if and only if the needle occurs in the string at some position |
| Text.OccursStep | frontend-example/js/phone-auth.js:138 | an occurrence is either at the front or in the tail, the step `includes` scans by |
| Text.Trim | frontend-example/js/phone-auth.js:25 | no contract of its own; `Text.TrimShape` states what `trim` leaves |
| Text.TrimShape | frontend-example/js/phone-auth.js:82 | `trim` leaves a middle slice of the string, with only whitespace removed before and after it, that neither starts nor ends with whitespace |
| Text.TrimIdempotent | frontend-example/js/phone-auth.js:82 | trimming a trimmed string changes nothing |
| Text.FilterCompose | src/handlers/phone-auth.js:40 | the two chained replaces of the cleaning expression equal one replace by the intersection of the two classes |
| Text.NatToDecimal | src/handlers/phone-auth.js:43 | `toString` of a non-negative integer is a non-empty digit string denoting that integer, with no leading zero unless the integer is 0 |
| Text.DecimalRoundTrip | src/handlers/phone-auth.js:43 | `toString` inverts the decimal value of any numeral without a leading zero |
| OtpCode.VerificationCode | src/handlers/phone-auth.js:43 | the drawn code is exactly six digits with no leading zero, and it denotes 100000 + draw |
| OtpCode.VerificationCodeInjective | src/handlers/phone-auth.js:195 | distinct draws give distinct codes |
| OtpCode.EveryCodeIsDrawn | src/triggers/auth.js:6 | every six-digit numeral without a leading zero is the code of exactly the draw value - 100000, so the codes are the whole range 100000..999999 |
| PhoneOtp.CleanPhone | src/handlers/phone-auth.js:40 | the cleaned number holds only '+' and digits, and removing whitespace first changes nothing: it is the single filter keeping '+' and digits |
| PhoneOtp.CleanPhoneSelects | src/handlers/phone-auth.js:40 | the cleaned number is a subsequence of the input in which every '+' (not only a leading one) and every digit occurs as often as in the input, and nothing else occurs |
| PhoneOtp.CleanPhoneIdempotent | src/handlers/phone-auth.js:127 | cleaning a cleaned number changes nothing, so confirm's and resend's re-cleaning of an already clean number names the same user |
| PhoneOtp.CleanPhoneFixes | src/handlers/phone-auth.js:192 | a string of '+' and digits is its own cleaned form |
| PhoneOtp.SeparatorsIgnored | src/handlers/phone-auth.js:39-40 | inserting any run of separators (no '+' or digit) anywhere does not change the cleaned number |
| PhoneOtp.FirstMatch | src/handlers/phone-auth.js:107 | finds the leftmost position where '+' is followed by nine digits, or reports there is none |
| PhoneOtp.MaskDestination | src/handlers/phone-auth.js:107 | masking keeps the length; with no match the number is unchanged; otherwise exactly the three characters after the first "+dd" become '*' and all others stay |
| PhoneOtp.MaskChangesIffMatch | src/handlers/phone-auth.js:221 | the masked destination differs from the number if and only if the pattern occurs in it |
| PhoneOtp.MaskExample | src/handlers/phone-auth.js:107 | "+15551234567" is shown as "+15***234567" |
| PhoneOtp.OtpCredential | src/handlers/phone-auth.js:47 | no contract of its own: the code followed by "A!", the password initiate stores and confirm presents (line 129); `PhoneOtp.InitiateThenConfirm` and `PhoneOtp.ResendAsWrittenLocksOut` state what follows from it |
| PhoneOtp.Deliver | src/handlers/phone-auth.js:95-110 | the text goes to the user whose credential was just written, directly after that write, and the response is 200 exactly when publishing succeeds |
| PhoneOtp.Initiate | src/handlers/phone-auth.js:35-119 | first call creates the cleaned user with the code plus "A!" and the invitation suppressed; a text is sent if and only if create, or set-password after UsernameExistsException, succeeded, and only right after that write; it goes to the cleaned number and ends with the code; 200 exactly when the write and the text succeed; every other create error, a set-password error and a publish error each answer 400 with that error's name |
| PhoneOtp.ResendWith | src/handlers/phone-auth.js:187-233 | resend's first call overwrites the cleaned user's password with the new code plus the suffix, and it makes two calls when that write succeeded and one otherwise; a text is sent if and only if that write succeeded, to the cleaned number, ending with the code; 200 exactly when both succeed |
| PhoneOtp.ResendAsWritten | src/handlers/phone-auth.js:204 | resend as written stores the new code plus "Aa!" |
| PhoneOtp.Resend | src/handlers/phone-auth.js:204 | corrected resend stores the new code plus "A!", the credential initiate stores |
| PhoneOtp.Confirm | src/handlers/phone-auth.js:122-184 | confirm signs in as the cleaned number with the code plus "A!" and texts nothing; it makes exactly one call, and a second one if and only if the provider demands a new password, which then sets the random part plus "A1!"; 200 exactly when sign-in (and that second call, when made) succeeds, carrying the tokens of the last reply; a fault answers 400 with its name |
| PhoneOtp.InitiateStoresCode | src/handlers/phone-auth.js:47 | after initiate the store holds the code plus "A!" under the cleaned number when a write succeeded, and is otherwise unchanged; no other user is touched |
| PhoneOtp.ApplyNoWrite | src/handlers/phone-auth.js:96-101 | failed writes and calls that write nothing (sign-in, publish) leave the store unchanged |
| PhoneOtp.InitiateThenConfirm | src/handlers/phone-auth.js:129 | after a successful initiate, confirm with the texted code, from any spelling of the same number, presents exactly the stored password |
| PhoneOtp.ResendStoresCode | src/handlers/phone-auth.js:201-208 | after resend the store holds the new code plus the suffix under the cleaned number when the write succeeded, and is otherwise unchanged |
| PhoneOtp.ResendAsWrittenLocksOut | src/handlers/phone-auth.js:204 | after the as-written resend's write succeeds, confirm presents a password the store refuses for every code whatsoever |
| PhoneOtp.ResendThenConfirm | src/handlers/phone-auth.js:129 | after a successful corrected resend, confirm with the new code is accepted, and a code from an earlier draw is accepted if and only if it is the same draw |
| PhoneOtp.ConfirmRetiresCode | src/handlers/phone-auth.js:151-169 | when the new-password answer succeeds, the code's credential is replaced and the same code is refused afterwards |
| PhoneOtp.DeliveryFailureKeepsCode | src/handlers/phone-auth.js:95-101 | a publish failure after a successful write answers 400, yet the new code is stored and accepted |
| ChallengeTriggers.DefineAuthChallenge | src/triggers/auth.js:23-42 | both flags are always set and never both true; tokens if and only if the session is one correct attempt; failure if and only if two or more attempts or one wrong one; the empty session gives CUSTOM_CHALLENGE with both flags false; otherwise the challenge name is left as it was |
| ChallengeTriggers.CreateAuthChallenge | src/triggers/auth.js:3-21 | for CUSTOM_CHALLENGE the public parameters are just the user's phone_number, the private ones just a six-digit answer, and the metadata SMS_CHALLENGE; any other challenge leaves the response unchanged |
| ChallengeTriggers.VerifyAuthChallengeResponse | src/triggers/auth.js:44-54 | no contract of its own, since it is a single `===` of the stored answer and the client's answer; `ChallengeTriggers.LoginSingleAttempt` states what it decides in the chained flow |
| ChallengeTriggers.LoginSingleAttempt | src/triggers/auth.js:26-51 | run together, the three triggers issue tokens exactly when the first answer equals the drawn code, fail on any other first answer, ignore later answers, and keep challenging until an answer arrives |
| ChallengeTriggers.NoSecondAttempt | src/triggers/auth.js:35-38 | a session of two or more attempts always fails, whatever the results |
| AuthHandlers.SignUpSelection | src/handlers/auth.js:40-64 | for email or both the username is the email and the attributes start with it; for phone_number the username is the phone and the attributes are exactly the phone; the phone attribute is present if and only if the type is phone_number, or both with a non-empty phone; the email attribute if and only if email or both; any other type gives no username and no attributes; the list holds nothing but these two attributes and never one twice |
| AuthHandlers.SelectUsername | src/handlers/auth.js:95-99 | the `if` / `else if` username rule of the other handlers gives the same username as sign-up's three independent `if`s, for every verification type |
| AuthHandlers.AccountRequestFor | src/handlers/auth.js:92-99 | each of the six operations sends its own request variant; every account handler (sign-in, confirm, resend, forgot, confirm-forgot) names the user sign-up registered, whatever the verification type; the password, confirmation code and new password are passed through from the form, and sign-up sends the attributes of sign-up's selection |
| AuthHandlers.InitiatePhoneAuth | src/handlers/auth.js:258-339 | a user is created if and only if the first start fails with UserNotFoundException, with username and phone_number the raw number, phone_number_verified "true" and the invitation suppressed; the flow is retried exactly once, and only after a successful create; 200 exactly when the first start or the retry replies; any other first error, a create error or a retry error answers 400 with its name and makes no further call |
| AuthHandlers.ConfirmPhoneAuth | src/handlers/auth.js:342-377 | one challenge answer is sent; 200 with the tokens if and only if the reply carries tokens; a reply without tokens answers 400 InvalidCode; a fault answers 400 with its name |
| AuthHandlers.ConfirmSucceedsIffCodeDrawn | src/handlers/auth.js:342-377 | when the provider's reply is the one the three triggers decide, confirm answers 200 if and only if the code is the one the create trigger drew, and an error body otherwise |
| EmailAuth.EncodeEmail | src/handlers/email-auth.js:35 | no contract of its own; `EmailAuth.EncodedShape`, `EmailAuth.EncodeSplit`, `EmailAuth.ReplaceAfterLocal` and `EmailAuth.EncodingCollides` state what the encoding does |
| EmailAuth.ReplaceFirstAt | src/handlers/email-auth.js:35 | without '@' the string is unchanged; with one it grows by exactly three characters |
| EmailAuth.ReplaceAfterLocal | src/handlers/email-auth.js:35 | only the first '@' becomes "_at_": for `local@rest` with no '@' in `local`, the result is `local`, "_at_", and `rest` untouched, later '@' included |
| EmailAuth.DotsToUnderscores | src/handlers/email-auth.js:35 | every '.' becomes '_' and every other character stays where it was, so the length is kept and no '.' remains; a string without '.' is unchanged |
| EmailAuth.EncodedShape | src/handlers/email-auth.js:35 | the username has no '.', is three characters longer when the email has an '@', has one '@' fewer when it had any, and equals the email when that has neither '@' nor '.' |
| EmailAuth.AtSigns | src/handlers/email-auth.js:35 | an email with exactly one '@' encodes without any; with two or more, an '@' survives |
| EmailAuth.EncodeSplit | src/handlers/email-auth.js:35 | `local@domain` with no '@' in `local` encodes to both parts with dots replaced, joined by "_at_" |
| EmailAuth.EncodingCollides | src/handlers/email-auth.js:35 | the encoding is not injective: any address with a dot and the same address with its dots turned to underscores are different emails with one username (for example "a.b@c.d" and "a_b@c_d") |
| EmailAuth.UsernameFor | src/handlers/email-auth.js:35-193 | no contract of its own: the encoded email for sign-up (line 35), confirm-sign-up (102) and resend (134), the raw email for sign-in, forgot-password (168) and confirm-forgot-password (193); `EmailAuth.RawUsernameMatchesIff` and `EmailAuth.EncodedHandlersAgree` state what follows |
| EmailAuth.RawUsernameMatchesIff | src/handlers/email-auth.js:74 | sign-in, forgot-password and confirm-forgot-password send the raw email as the username string, which equals the one sign-up created if and only if the email has no '@' and no '.'; for any other email the strings differ |
| EmailAuth.EncodedHandlersAgree | src/handlers/email-auth.js:102 | confirm-sign-up and resend-code send the same username as sign-up |
| FrontendAuth.FormatPhoneNumber | frontend-example/js/auth.js:228-243 | the result starts with '+'; '+'-prefixed input is returned exactly as typed; otherwise the rest is digits: with ten or more digits it is "+1" and the last ten digits (length 12), with fewer it is '+' and all of them |
| FrontendAuth.FormatPhoneNumberIdempotent | frontend-example/js/auth.js:238-240 | formatting twice is formatting once |
| FrontendAuth.IsValidEmail | frontend-example/js/auth.js:246-249 | no contract of its own; `FrontendAuth.IsValidEmailMatchesPattern` states that it accepts exactly the strings the regular expression matches |
| FrontendAuth.IsValidEmailMatchesPattern | frontend-example/js/auth.js:246-249 | the scanning check holds if and only if the string matches `^[^\s@]+@[^\s@]+\.[^\s@]+$`: exactly one '@', no whitespace, a non-empty part before it, and a '.' in the domain that is neither its first nor its last character |
| FrontendAuth.ValidEmailSplits | frontend-example/js/auth.js:247-248 | a string the check accepts splits as the regular expression requires |
| FrontendAuth.SplitIsValid | frontend-example/js/auth.js:247-248 | a string the regular expression matches is accepted by the check |
| FrontendAuth.ValidatePassword | frontend-example/js/auth.js:252-277 | valid if and only if there are no errors, if and only if the password has at least 8 characters and an upper-case letter, a lower-case letter and a digit; each message appears if and only if its rule fails, and no other message appears; messages come in the order length, upper, lower, number, so at most four |
| FrontendPhoneAuth.LiveFormat | frontend-example/js/phone-auth.js:193-208 | with n digits in the field: below 3 the bare digits; 3 to 5 gives "(ddd) rest" (n + 3 characters); 6 to 10 gives "(ddd) ddd-rest" (n + 4); above 10 gives "+d ddd ddd rest" (n + 4) |
| FrontendPhoneAuth.Layout | frontend-example/js/phone-auth.js:197-206 | no contract of its own; `FrontendPhoneAuth.LiveFormat` states its lengths and separator positions and `FrontendPhoneAuth.LayoutKeepsDigits` that it keeps the digits |
| FrontendPhoneAuth.LayoutKeepsDigits | frontend-example/js/phone-auth.js:197-206 | each layout adds only separators to the digits |
| FrontendPhoneAuth.LiveFormatKeepsDigits | frontend-example/js/phone-auth.js:194-206 | the formatted field has exactly the digits of the input, in order |
| FrontendPhoneAuth.LiveFormatIdempotent | frontend-example/js/phone-auth.js:194-208 | formatting a formatted field changes nothing |
| FrontendPhoneAuth.SanitiseCode | frontend-example/js/phone-auth.js:227 | the code field keeps only digits, each as often as typed, in order |
| FrontendPhoneAuth.SubmitPhone | frontend-example/js/phone-auth.js:22-71 | a request is sent if and only if the trimmed field is non-empty and formats to at least 10 characters; it carries exactly the formatted trimmed field, which starts with '+'; on success the state becomes (that number, the reply's session, pending) and the code form shows; otherwise the state is unchanged |
| FrontendPhoneAuth.SubmitVerification | frontend-example/js/phone-auth.js:79-149 | a confirm request is sent if and only if phone and session are stored and the trimmed code has 6 characters, and it carries them; the dashboard shows if and only if the reply has tokens, and then the state is cleared; otherwise the state is unchanged; without phone or session the number form shows; a code that fails the six-character check keeps the code form; a failure stays on the code form exactly when the message mentions "Invalid" or "Code" |
| FrontendPhoneAuth.AfterFailedVerify | frontend-example/js/phone-auth.js:137-145 | a failed verify never shows the dashboard; it keeps the code form if and only if "Invalid" or "Code" occurs in the message |
| FrontendPhoneAuth.ResendCode | frontend-example/js/phone-auth.js:154-187 | a request for the stored phone is sent if and only if one is stored; phone and pending flag are kept, and only a successful reply replaces the session |
| FrontendPhoneAuth.AutoSubmittedCodePassesGuard | frontend-example/js/phone-auth.js:227-230 | a code the field auto-submits passes the verify form's six-character check |
| FrontendPhoneAuth.SignInThenVerify | frontend-example/js/phone-auth.js:53-55 | sign-in followed by a verify that gets tokens sends the number and session sign-in stored, and returns the page to its initial state |
| FrontendPhoneAuth.PlainFailureLeavesVerify | frontend-example/js/phone-auth.js:138-145 | a failure message with no 'I' and no 'C' sends the page back to the number form |
| FrontendPhoneAuth.WrongCodeStaysOnVerify | frontend-example/js/phone-auth.js:138-141 | the custom-flow confirm handler's "Invalid verification code" keeps the code form for another try |
| FrontendPhoneAuth.MissingTokensLeaveVerify | frontend-example/js/phone-auth.js:131-145 | a reply without tokens ("Authentication failed - no tokens received") returns the page to the number form |

## Left out

- JSON parsing, `createResponse` headers and CORS, and `console.log` logging. An absent or non-string request field (a JavaScript `TypeError`) is not modelled: every field is a string.
- Provider and SMS calls are parameters, so the model states what each handler does for every combination of outcomes. It does not say which outcomes the provider actually produces.
- The provider's own login loop for the custom flow is written out in `ChallengeTriggers.Login` as an assumption about how the three triggers are chained, and `AuthHandlers.ChainReply` is a second assumption about the provider: its reply to the first answer carries tokens when the triggers issue them, is a `NotAuthorizedException` rejection when they fail authentication, and is another challenge otherwise.
- `Math.random`, the floating-point arithmetic around it and `toString(36)` are not modelled: codes are an integer draw, and random passwords are opaque strings.
- Concurrent requests for one number (the provider keeps the last write) are not modelled.
- String lengths count characters, not UTF-16 code units.
- In the browser, DOM updates, `fetch`/`makeRequest`, `localStorage`, `setTimeout`, focus handling, status messages, `showDashboard` and the key-down filter of the code field are left out. A request's outcome is a parameter: the reply fields the page reads, or the message of the error the request helper throws. An absent session is modelled as "".
- Email aliases are not modelled: the provider may resolve a raw email to the user registered under the encoded username (the comment at src/handlers/email-auth.js:34), so the model compares username strings only and says nothing about which user a raw email reaches.
- The browser's email pages are glue around network calls and are not part of this model.

## Findings

| source | as written | input that shows it | evidently intended | confidence | as-written member | corrected member |
|---|---|---|---|---|---|---|
| src/handlers/phone-auth.js:204 | resend stores the new code plus "Aa!", while confirm presents the code plus "A!" (line 129) | draw 0: resend stores "100000Aa!", the text says 100000, confirm presents "100000A!" and is refused; no code is accepted after the resend | store the code plus "A!", as the comment "Match the password format" says | high (not executed) | PhoneOtp.ResendAsWrittenLocksOut | PhoneOtp.ResendThenConfirm |

=== FILE: auth_handlers.dfy ===
/** The account handlers configured by VERIFICATION_TYPE, and the custom-challenge phone
    login. Sign-up picks the username and attributes by verification type; the other
    account handlers pick the username by a second, separately written rule. Phone
    initiate starts the custom flow and, for an unknown user, creates the user and
    retries once; phone confirm answers the challenge and succeeds only with tokens. */
module AuthHandlers {
  import opened Wrappers
  import opened Provider
  import OtpCode
  import ChallengeTriggers

  const EmailType := "email"
  const PhoneType := "phone_number"
  const BothType := "both"
  const UserNotFoundException := "UserNotFoundException"
  const InvalidCode := "InvalidCode"
  const InvalidCodeMessage := "Invalid verification code"

  /** The request fields the account handlers read. An absent field is not modelled:
      each is a string, and "" is the only falsy one. */
  datatype AccountForm = AccountForm(email: string, password: string, phoneNumber: string, confirmationCode: string, newPassword: string)

  /** The self-service requests, each with the username it names (`None` is `undefined`). */
  datatype AccountRequest =
    | SignUp(username: Option<string>, password: string, attributes: seq<Attribute>)
    | SignIn(username: Option<string>, password: string)
    | ConfirmSignUp(username: Option<string>, confirmationCode: string)
    | ResendConfirmationCode(username: Option<string>)
    | ForgotPassword(username: Option<string>)
    | ConfirmForgotPassword(username: Option<string>, confirmationCode: string, password: string)

  datatype AccountOperation =
    | SignUpOp | SignInOp | ConfirmSignUpOp | ResendConfirmationCodeOp | ForgotPasswordOp | ConfirmForgotPasswordOp

  function EmailAttribute(email: string): Attribute { Attribute("email", email) }

  function PhoneAttribute(phoneNumber: string): Attribute { Attribute("phone_number", phoneNumber) }

  /** Username and attributes of sign-up: three independent `if`s on the verification type. */
  function SignUpSelection(verificationType: string, email: string, phoneNumber: string): (r: (Option<string>, seq<Attribute>))
    ensures verificationType == EmailType || verificationType == BothType ==>
      r.0 == Some(email) && |r.1| >= 1 && r.1[0] == EmailAttribute(email)
    ensures verificationType == PhoneType ==> r == (Some(phoneNumber), [PhoneAttribute(phoneNumber)])
    ensures PhoneAttribute(phoneNumber) in r.1 <==>
      verificationType == PhoneType || (verificationType == BothType && phoneNumber != "")
    ensures EmailAttribute(email) in r.1 <==> verificationType == EmailType || verificationType == BothType
    ensures verificationType != EmailType && verificationType != BothType && verificationType != PhoneType ==>
      r == (None, [])
    ensures forall a :: a in r.1 ==> a == EmailAttribute(email) || a == PhoneAttribute(phoneNumber)
    ensures forall i, j :: 0 <= i < j < |r.1| ==> r.1[i] != r.1[j]
    ensures |r.1| <= 2
  {
    var (username, attributes) :=
      if verificationType == EmailType || verificationType == BothType then (Some(email), [EmailAttribute(email)])
      else (None, []);
    var (username, attributes) :=
      if verificationType == PhoneType then (Some(phoneNumber), attributes + [PhoneAttribute(phoneNumber)])
      else (username, attributes);
    var attributes :=
      if verificationType == BothType && phoneNumber != "" then attributes + [PhoneAttribute(phoneNumber)]
      else attributes;
    assert [] + [PhoneAttribute(phoneNumber)] == [PhoneAttribute(phoneNumber)];
    (username, attributes)
  }

  /** Username of the other account handlers: an `if` / `else if` on the verification type. */
  function SelectUsername(verificationType: string, email: string, phoneNumber: string): (r: Option<string>)
    ensures r == SignUpSelection(verificationType, email, phoneNumber).0
  {
    if verificationType == EmailType || verificationType == BothType then Some(email)
    else if verificationType == PhoneType then Some(phoneNumber)
    else None
  }

  /** The request each account handler sends. Whatever the handler, it names the user
      sign-up registered. */
  function AccountRequestFor(op: AccountOperation, verificationType: string, form: AccountForm): (r: AccountRequest)
    ensures r.username == SignUpSelection(verificationType, form.email, form.phoneNumber).0
    ensures op.SignUpOp? <==> r.SignUp?
    ensures op.SignInOp? <==> r.SignIn?
    ensures op.ConfirmSignUpOp? <==> r.ConfirmSignUp?
    ensures op.ResendConfirmationCodeOp? <==> r.ResendConfirmationCode?
    ensures op.ForgotPasswordOp? <==> r.ForgotPassword?
    ensures op.ConfirmForgotPasswordOp? <==> r.ConfirmForgotPassword?
    ensures r.SignUp? ==> r.password == form.password && r.attributes == SignUpSelection(verificationType, form.email, form.phoneNumber).1
    ensures r.SignIn? ==> r.password == form.password
    ensures r.ConfirmSignUp? ==> r.confirmationCode == form.confirmationCode
    ensures r.ConfirmForgotPassword? ==> r.confirmationCode == form.confirmationCode && r.password == form.newPassword
  {
    var username := SelectUsername(verificationType, form.email, form.phoneNumber);
    match op
    case SignUpOp =>
      var (u, attributes) := SignUpSelection(verificationType, form.email, form.phoneNumber);
      SignUp(u, form.password, attributes)
    case SignInOp => SignIn(username, form.password)
    case ConfirmSignUpOp => ConfirmSignUp(username, form.confirmationCode)
    case ResendConfirmationCodeOp => ResendConfirmationCode(username)
    case ForgotPasswordOp => ForgotPassword(username)
    case ConfirmForgotPasswordOp => ConfirmForgotPassword(username, form.confirmationCode, form.newPassword)
  }

  // ---- custom-challenge phone login ---------------------------------------------

  function CustomAuthCount(steps: seq<Step>): nat {
    if steps == [] then 0 else (if steps[0].call.CustomAuth? then 1 else 0) + CustomAuthCount(steps[1..])
  }

  predicate CreatesUser(steps: seq<Step>) {
    exists i :: 0 <= i < |steps| && steps[i].call.AdminCreateUser?
  }

  predicate UserUnknown(first: AuthOutcome) {
    first.Rejected? && first.fault.name == UserNotFoundException
  }

  /** `initiatePhoneAuth` of the custom flow, given the outcome of the first CUSTOM_AUTH
      start, the random temporary password, and the outcomes of create and of the retry.
      The number is used raw, without cleaning. */
  function InitiatePhoneAuth(phoneNumber: string, first: AuthOutcome, randomPassword: string, create: Outcome, retry: AuthOutcome): (run: Run)
    ensures run.steps != [] && run.steps[0] == Step(CustomAuth(phoneNumber), first.Replied?)
    ensures CreatesUser(run.steps) <==> UserUnknown(first)
    ensures UserUnknown(first) ==>
      run.steps[1].call == AdminCreateUser(phoneNumber, [Attribute("phone_number", phoneNumber), Attribute("phone_number_verified", "true")], randomPassword, true)
    ensures UserUnknown(first) ==> run.steps[1].succeeded == create.Done?
    ensures CustomAuthCount(run.steps) == if UserUnknown(first) && create.Done? then 2 else 1
    ensures run.response.statusCode == 200 <==> first.Replied? || (UserUnknown(first) && create.Done? && retry.Replied?)
    ensures first.Replied? ==> run == Run([run.steps[0]], Response(200, ChallengeIssued(first.reply.session, first.reply.challengeName, false)))
    ensures first.Rejected? && !UserUnknown(first) ==> run == Run([run.steps[0]], ErrorResponse(first.fault))
    ensures UserUnknown(first) && create.Threw? ==> |run.steps| == 2 && run.response == ErrorResponse(create.fault)
    ensures UserUnknown(first) && create.Done? ==>
      && |run.steps| == 3
      && run.steps[2] == Step(CustomAuth(phoneNumber), retry.Replied?)
      && run.response == if retry.Replied? then Response(200, ChallengeIssued(retry.reply.session, retry.reply.challengeName, true))
                         else ErrorResponse(retry.fault)
  {
    var start := Step(CustomAuth(phoneNumber), first.Replied?);
    if first.Replied? then
      Run([start], Response(200, ChallengeIssued(first.reply.session, first.reply.challengeName, false)))
    else if !UserUnknown(first) then
      Run([start], ErrorResponse(first.fault))
    else
      var createStep := Step(AdminCreateUser(phoneNumber, [Attribute("phone_number", phoneNumber), Attribute("phone_number_verified", "true")], randomPassword, true), create.Done?);
      if create.Threw? then
        assert CustomAuthCount([start, createStep]) == 1 + CustomAuthCount([createStep]);
        Run([start, createStep], ErrorResponse(create.fault))
      else
        var retryStep := Step(CustomAuth(phoneNumber), retry.Replied?);
        var steps := [start, createStep, retryStep];
        assert steps[1..] == [createStep, retryStep] && steps[1..][1..] == [retryStep] && steps[1..][1..][1..] == [];
        assert CustomAuthCount([retryStep]) == 1;
        assert CustomAuthCount([createStep, retryStep]) == 1;
        assert CustomAuthCount(steps) == 2;
        assert steps[1].call.AdminCreateUser?;
        var response := if retry.Replied? then Response(200, ChallengeIssued(retry.reply.session, retry.reply.challengeName, true))
                        else ErrorResponse(retry.fault);
        Run(steps, response)
  }

  /** `confirmPhoneAuth` of the custom flow, given the outcome of the challenge answer:
      status 200 exactly when the reply carries tokens. */
  function ConfirmPhoneAuth(phoneNumber: string, code: string, session: string, reply: AuthOutcome): (run: Run)
    ensures run.steps == [Step(RespondCustomChallenge(session, phoneNumber, code), reply.Replied?)]
    ensures run.response.statusCode == 200 <==> reply.Replied? && reply.reply.authenticationResult.Some?
    ensures run.response.statusCode == 200 ==> run.response.body == SignedIn(reply.reply.authenticationResult)
    ensures reply.Replied? && reply.reply.authenticationResult.None? ==>
      run.response == Response(400, ErrorBody(InvalidCode, InvalidCodeMessage))
    ensures reply.Rejected? ==> run.response == ErrorResponse(reply.fault)
  {
    var respond := Step(RespondCustomChallenge(session, phoneNumber, code), reply.Replied?);
    if reply.Rejected? then Run([respond], ErrorResponse(reply.fault))
    else if reply.reply.authenticationResult.Some? then Run([respond], Response(200, SignedIn(reply.reply.authenticationResult)))
    else Run([respond], Response(400, ErrorBody(InvalidCode, InvalidCodeMessage)))
  }

  /** The provider's reply to the first challenge answer, as the triggers decide it: tokens
      when they are issued, a rejection when authentication fails, another challenge
      otherwise. */
  function ChainReply(verdict: ChallengeTriggers.Verdict, tokens: Tokens, nextSession: string): AuthOutcome {
    match verdict
    case TokensIssued => Replied(AuthReply(None, None, Some(tokens)))
    case Failed => Rejected(Fault("NotAuthorizedException", "Incorrect username or password."))
    case Challenged => Replied(AuthReply(Some(ChallengeTriggers.CustomChallenge), Some(nextSession), None))
  }

  /** Confirm answers the custom challenge once: it signs the user in exactly when the
      code is the one the create trigger drew. */
  lemma ConfirmSucceedsIffCodeDrawn(phoneNumber: string, code: string, session: string,
                                    userAttributes: map<string, string>, draw: OtpCode.CodeDraw, tokens: Tokens, nextSession: string)
    ensures var reply := ChainReply(ChallengeTriggers.Login(userAttributes, draw, [Some(code)]), tokens, nextSession);
      && (ConfirmPhoneAuth(phoneNumber, code, session, reply).response.statusCode == 200 <==> code == OtpCode.VerificationCode(draw))
      && (code != OtpCode.VerificationCode(draw) ==> ConfirmPhoneAuth(phoneNumber, code, session, reply).response.body.ErrorBody?)
  {
    ChallengeTriggers.LoginSingleAttempt(userAttributes, draw, [Some(code)]);
  }
}

=== FILE: challenge_triggers.dfy ===
/** The three triggers of the provider's custom authentication flow for SMS login.
    `DefineAuthChallenge` decides, from the attempts so far, whether to pose the
    challenge, issue tokens or fail; `CreateAuthChallenge` draws the code and splits it
    into what the client sees (the phone) and what only the verifier sees (the answer);
    `VerifyAuthChallengeResponse` compares the answer. Together they allow one
    challenge and one attempt: tokens only on a correct first answer. */
module ChallengeTriggers {
  import opened Wrappers
  import opened OtpCode

  const CustomChallenge := "CUSTOM_CHALLENGE"
  const SmsChallengeMetadata := "SMS_CHALLENGE"

  /** One answered challenge in the request's `session` list. */
  datatype Attempt = Attempt(challengeName: string, challengeResult: bool)

  /** The response fields of the define trigger; `None` is a field left unset. */
  datatype Decision = Decision(challengeName: Option<string>, issueTokens: Option<bool>, failAuthentication: Option<bool>)

  /** The response fields of the create trigger. A public parameter whose value is
      `undefined` is a present key mapped to `None`. */
  datatype ChallengeSetup = ChallengeSetup(publicParameters: map<string, Option<string>>, privateParameters: map<string, string>, metadata: Option<string>)

  /** `defineAuthChallenge`: updates `response` from the attempts in `session`. */
  function DefineAuthChallenge(session: seq<Attempt>, response: Decision): (d: Decision)
    ensures d.issueTokens.Some? && d.failAuthentication.Some?
    ensures !(d.issueTokens.value && d.failAuthentication.value)
    ensures d.issueTokens.value <==> |session| == 1 && session[0].challengeResult
    ensures d.failAuthentication.value <==> |session| >= 2 || (|session| == 1 && !session[0].challengeResult)
    ensures |session| == 0 ==> d == Decision(Some(CustomChallenge), Some(false), Some(false))
    ensures |session| > 0 ==> d.challengeName == response.challengeName
  {
    if |session| == 0 then
      Decision(Some(CustomChallenge), Some(false), Some(false))
    else if |session| == 1 && session[0].challengeResult then
      response.(issueTokens := Some(true), failAuthentication := Some(false))
    else
      response.(issueTokens := Some(false), failAuthentication := Some(true))
  }

  /** `createAuthChallenge`, given the code draw: for CUSTOM_CHALLENGE, the client sees only
      the user's phone attribute and the answer is a fresh six-digit code; any other
      challenge leaves the response as it was. */
  function CreateAuthChallenge(challengeName: string, userAttributes: map<string, string>, draw: CodeDraw, response: ChallengeSetup): (r: ChallengeSetup)
    ensures challengeName == CustomChallenge ==>
      && r.publicParameters.Keys == {"phone"}
      && r.publicParameters["phone"] == Get(userAttributes, "phone_number")
      && r.privateParameters.Keys == {"answer"}
      && IsSixDigitCode(r.privateParameters["answer"])
      && r.metadata == Some(SmsChallengeMetadata)
    ensures challengeName != CustomChallenge ==> r == response
  {
    if challengeName == CustomChallenge then
      ChallengeSetup(map["phone" := Get(userAttributes, "phone_number")], map["answer" := VerificationCode(draw)], Some(SmsChallengeMetadata))
    else
      response
  }

  /** `verifyAuthChallengeResponse`: JavaScript `===` on the private answer and the
      client's answer, where either may be `undefined`. */
  function VerifyAuthChallengeResponse(expected: Option<string>, challengeAnswer: Option<string>): (answerCorrect: bool)
  {
    expected == challengeAnswer
  }

  /** How a login ends: tokens issued, authentication failed, or another challenge posed. */
  datatype Verdict = TokensIssued | Failed | Challenged

  function VerdictOf(d: Decision): Verdict
    requires d.issueTokens.Some? && d.failAuthentication.Some?
  {
    if d.issueTokens.value then TokensIssued
    else if d.failAuthentication.value then Failed
    else Challenged
  }

  /** The custom flow after the client's answers: the define trigger runs on the empty
      session, then after each answer (checked by the verify trigger against the answer
      the create trigger stored) on the session so far, until it stops posing challenges. */
  function Login(userAttributes: map<string, string>, draw: CodeDraw, answers: seq<Option<string>>): Verdict {
    var setup := CreateAuthChallenge(CustomChallenge, userAttributes, draw, ChallengeSetup(map[], map[], None));
    LoginFrom([], Get(setup.privateParameters, "answer"), answers)
  }

  function LoginFrom(session: seq<Attempt>, expected: Option<string>, answers: seq<Option<string>>): Verdict
    decreases |answers|
  {
    var verdict := VerdictOf(DefineAuthChallenge(session, Decision(None, None, None)));
    if verdict != Challenged || answers == [] then verdict
    else
      var attempt := Attempt(CustomChallenge, VerifyAuthChallengeResponse(expected, answers[0]));
      LoginFrom(session + [attempt], expected, answers[1..])
  }

  /** One challenge, one attempt: a login issues tokens exactly when the first answer is
      the drawn code, fails on any other first answer, and ignores later answers. */
  lemma LoginSingleAttempt(userAttributes: map<string, string>, draw: CodeDraw, answers: seq<Option<string>>)
    ensures Login(userAttributes, draw, answers) ==
      if answers == [] then Challenged
      else if answers[0] == Some(VerificationCode(draw)) then TokensIssued
      else Failed
  {
    var setup := CreateAuthChallenge(CustomChallenge, userAttributes, draw, ChallengeSetup(map[], map[], None));
    var expected := Get(setup.privateParameters, "answer");
    assert expected == Some(VerificationCode(draw));
    assert VerdictOf(DefineAuthChallenge([], Decision(None, None, None))) == Challenged;
    if answers != [] {
      var attempt := Attempt(CustomChallenge, VerifyAuthChallengeResponse(expected, answers[0]));
      assert [] + [attempt] == [attempt];
      assert LoginFrom([], expected, answers) == LoginFrom([attempt], expected, answers[1..]);
      var verdict := VerdictOf(DefineAuthChallenge([attempt], Decision(None, None, None)));
      assert verdict != Challenged;
      assert LoginFrom([attempt], expected, answers[1..]) == verdict;
    }
  }

  /** However the earlier attempts went, a session of two or more attempts fails. */
  lemma NoSecondAttempt(session: seq<Attempt>, response: Decision)
    requires |session| >= 2
    ensures VerdictOf(DefineAuthChallenge(session, response)) == Failed
  {
  }
}

=== FILE: email_auth.dfy ===
/** The email account handlers. Sign-up registers the user under an encoded username
    (the first '@' becomes "_at_", every '.' becomes '_'), and confirm-sign-up and
    resend-code use the same encoding; sign-in, forgot-password and
    confirm-forgot-password send the raw email as the username instead. */
module EmailAuth {
  import opened Text

  /** `s.replace('@', '_at_')`: a string pattern, so only the first '@' is replaced. */
  function ReplaceFirstAt(s: string): (r: string)
    ensures '@' !in s ==> r == s
    ensures |r| == if '@' in s then |s| + 3 else |s|
  {
    if s == [] then []
    else if s[0] == '@' then "_at_" + s[1..]
    else [s[0]] + ReplaceFirstAt(s[1..])
  }

  /** `s.replace(/\./g, '_')`. */
  function DotsToUnderscores(s: string): (r: string)
    ensures |r| == |s| && '.' !in r
    ensures forall i :: 0 <= i < |s| ==> r[i] == if s[i] == '.' then '_' else s[i]
    ensures '.' !in s ==> r == s
  {
    if s == [] then [] else [if s[0] == '.' then '_' else s[0]] + DotsToUnderscores(s[1..])
  }

  /** The username sign-up registers for `email`. */
  function EncodeEmail(email: string): string {
    DotsToUnderscores(ReplaceFirstAt(email))
  }

  /** The encoded username has no '.', is three characters longer and has one '@' fewer
      when the email has an '@', and is the email itself when that has neither character. */
  lemma EncodedShape(email: string)
    ensures '.' !in EncodeEmail(email)
    ensures |EncodeEmail(email)| == if '@' in email then |email| + 3 else |email|
    ensures Count(EncodeEmail(email), '@') == if '@' in email then Count(email, '@') - 1 else Count(email, '@')
    ensures '@' !in email && '.' !in email ==> EncodeEmail(email) == email
  {
    UnderscoresKeepAt(ReplaceFirstAt(email));
    if '@' in email {
      AtCountAfterReplace(email);
    }
  }

  lemma {:induction false} AtCountAfterReplace(s: string)
    requires '@' in s
    ensures Count(ReplaceFirstAt(s), '@') == Count(s, '@') - 1
  {
    if s[0] != '@' {
      assert '@' in s[1..] by { var i :| 0 <= i < |s| && s[i] == '@'; assert s[1..][i - 1] == '@'; }
      AtCountAfterReplace(s[1..]);
      assert ReplaceFirstAt(s) == [s[0]] + ReplaceFirstAt(s[1..]);
      CountConcat([s[0]], ReplaceFirstAt(s[1..]), '@');
    } else {
      CountConcat("_at_", s[1..], '@');
    }
  }

  lemma {:induction false} UnderscoresKeepAt(s: string)
    ensures Count(DotsToUnderscores(s), '@') == Count(s, '@')
  {
    if s != [] {
      UnderscoresKeepAt(s[1..]);
      assert DotsToUnderscores(s)[1..] == DotsToUnderscores(s[1..]);
    }
  }

  /** Exactly one '@' encodes to a username with none; a second '@' survives. */
  lemma AtSigns(email: string)
    ensures Count(email, '@') == 1 ==> '@' !in EncodeEmail(email)
    ensures Count(email, '@') >= 2 ==> '@' in EncodeEmail(email)
  {
    EncodedShape(email);
    CountZero(email, '@');
    CountZero(EncodeEmail(email), '@');
  }

  /** The encoding of `local@domain`, where `local` has no '@': each part has its dots
      turned to underscores, joined by "_at_". */
  lemma EncodeSplit(local: string, domain: string)
    requires '@' !in local
    ensures EncodeEmail(local + ("@" + domain)) == DotsToUnderscores(local) + ("_at_" + DotsToUnderscores(domain))
  {
    ReplaceAfterLocal(local, domain);
    UnderscoresConcat(local, "_at_" + domain);
    UnderscoresOfTail(domain);
  }

  lemma UnderscoresOfTail(domain: string)
    ensures DotsToUnderscores("_at_" + domain) == "_at_" + DotsToUnderscores(domain)
  {
    UnderscoresConcat("_at_", domain);
  }

  /** Only the first '@' is replaced: whatever follows it, further '@' included, is kept. */
  lemma {:induction false} ReplaceAfterLocal(local: string, domain: string)
    requires '@' !in local
    ensures ReplaceFirstAt(local + ("@" + domain)) == local + ("_at_" + domain)
  {
    var email := local + ("@" + domain);
    if local == [] {
      assert email == "@" + domain;
      assert email[1..] == domain;
    } else {
      assert email[0] == local[0] && email[1..] == local[1..] + ("@" + domain);
      ReplaceAfterLocal(local[1..], domain);
      assert local + ("_at_" + domain) == [local[0]] + (local[1..] + ("_at_" + domain));
    }
  }

  lemma {:induction false} UnderscoresConcat(a: string, b: string)
    ensures DotsToUnderscores(a + b) == DotsToUnderscores(a) + DotsToUnderscores(b)
  {
    if a == [] {
      assert a + b == b;
    } else {
      assert (a + b)[1..] == a[1..] + b;
      UnderscoresConcat(a[1..], b);
    }
  }

  /** The encoding is not injective: an address with a dot in it and the same address with
      its dots turned to underscores are different emails that share one username. */
  lemma EncodingCollides(local: string, domain: string)
    requires '@' !in local
    requires '.' in local || '.' in domain
    ensures local + ("@" + domain) != DotsToUnderscores(local) + ("@" + DotsToUnderscores(domain))
    ensures EncodeEmail(local + ("@" + domain)) == EncodeEmail(DotsToUnderscores(local) + ("@" + DotsToUnderscores(domain)))
  {
    var twin := DotsToUnderscores(local) + ("@" + DotsToUnderscores(domain));
    assert '.' in local + ("@" + domain);
    assert '.' !in twin;
    assert '@' !in DotsToUnderscores(local) by {
      UnderscoresKeepAt(local);
      CountZero(local, '@');
      CountZero(DotsToUnderscores(local), '@');
    }
    EncodeSplit(local, domain);
    EncodeSplit(DotsToUnderscores(local), DotsToUnderscores(domain));
  }

  datatype EmailOperation = SignUpOp | SignInOp | ConfirmSignUpOp | ResendConfirmationCodeOp | ForgotPasswordOp | ConfirmForgotPasswordOp

  /** The username each email handler sends to the provider. */
  function UsernameFor(op: EmailOperation, email: string): string {
    match op
    case SignUpOp | ConfirmSignUpOp | ResendConfirmationCodeOp => EncodeEmail(email)
    case SignInOp | ForgotPasswordOp | ConfirmForgotPasswordOp => email
  }

  /** Sign-in, forgot-password and confirm-forgot-password send the username string sign-up
      created exactly when the email has no '@' and no '.'; for any other email the string
      differs. Whether the provider still resolves the raw email through an email alias is
      not part of this model. */
  lemma RawUsernameMatchesIff(op: EmailOperation, email: string)
    requires op.SignInOp? || op.ForgotPasswordOp? || op.ConfirmForgotPasswordOp?
    ensures UsernameFor(op, email) == UsernameFor(SignUpOp, email) <==> '@' !in email && '.' !in email
  {
    EncodedShape(email);
  }

  /** Confirm-sign-up and resend-code name the user sign-up created. */
  lemma EncodedHandlersAgree(op: EmailOperation, email: string)
    requires op.ConfirmSignUpOp? || op.ResendConfirmationCodeOp?
    ensures UsernameFor(op, email) == UsernameFor(SignUpOp, email)
  {
  }
}

=== FILE: frontend_auth.dfy ===
/** The pure helpers of the browser client: phone formatting before a request, the
    email shape check, and the password strength check with its error list. */
module FrontendAuth {
  import opened Text

  /** `formatPhoneNumber`: input already starting with '+' is kept as typed; otherwise the
      digits are taken, and ten or more of them become a US number built from the last ten. */
  function FormatPhoneNumber(phone: string): (r: string)
    ensures StartsWith(r, '+')
    ensures StartsWith(phone, '+') ==> r == phone
    ensures !StartsWith(phone, '+') ==> AllDigits(r[1..])
    ensures !StartsWith(phone, '+') && |Digits(phone)| >= 10 ==>
      |r| == 12 && r[..2] == "+1" && EndsWith(Digits(phone), r[2..])
    ensures !StartsWith(phone, '+') && |Digits(phone)| < 10 ==> r[1..] == Digits(phone)
  {
    var digits := Digits(phone);
    if |digits| >= 10 && !StartsWith(phone, '+') then
      var r := "+1" + digits[|digits| - 10..];
      assert r[2..] == digits[|digits| - 10..];
      r
    else if StartsWith(phone, '+') then phone
    else
      var r := "+" + digits;
      assert r[1..] == digits;
      r
  }

  /** Formatting a formatted number changes nothing, since every result starts with '+'. */
  lemma FormatPhoneNumberIdempotent(phone: string)
    ensures FormatPhoneNumber(FormatPhoneNumber(phone)) == FormatPhoneNumber(phone)
  {
  }

  // ---- email shape ------------------------------------------------------------

  /** Characters of the class `[^\s@]`. */
  predicate Plain(t: string) {
    forall k :: 0 <= k < |t| ==> !IsWhitespace(t[k]) && t[k] != '@'
  }

  /** The domain has a '.' that is neither its first nor its last character. */
  predicate HasInnerDot(domain: string) {
    |domain| >= 2 && '.' in domain[1..|domain| - 1]
  }

  /** `isValidEmail`, decided by scanning: no whitespace, exactly one '@', something before
      it, and an inner dot after it. */
  predicate IsValidEmail(email: string) {
    && (forall k :: 0 <= k < |email| ==> !IsWhitespace(email[k]))
    && Count(email, '@') == 1
    && 0 < IndexOf(email, '@') < |email|
    && HasInnerDot(email[IndexOf(email, '@') + 1..])
  }

  /** The regular expression `^[^\s@]+@[^\s@]+\.[^\s@]+$` matched with the '@' at `at` and
      the dot the pattern's `\.` consumes at `dot`. */
  ghost predicate EmailPatternSplit(s: string, at: int, dot: int) {
    && 0 < at && at + 1 < dot && dot + 1 < |s|
    && s[at] == '@' && s[dot] == '.'
    && Plain(s[..at]) && Plain(s[at + 1..dot]) && Plain(s[dot + 1..])
  }

  ghost predicate MatchesEmailPattern(s: string) {
    exists at, dot :: EmailPatternSplit(s, at, dot)
  }

  /** The scanning check accepts exactly the strings the regular expression matches. */
  lemma IsValidEmailMatchesPattern(s: string)
    ensures IsValidEmail(s) <==> MatchesEmailPattern(s)
  {
    if IsValidEmail(s) {
      ValidEmailSplits(s);
    }
    if MatchesEmailPattern(s) {
      var at, dot :| EmailPatternSplit(s, at, dot);
      SplitIsValid(s, at, dot);
    }
  }

  lemma ValidEmailSplits(s: string)
    requires IsValidEmail(s)
    ensures MatchesEmailPattern(s)
  {
    var at := IndexOf(s, '@');
    var domain := s[at + 1..];
    var m :| 0 <= m < |domain[1..|domain| - 1]| && domain[1..|domain| - 1][m] == '.';
    var dot := at + 2 + m;
    assert s[dot] == '.';
    CountOnce(s, '@', at);
    assert Plain(s[..at]);
    assert Plain(s[at + 1..dot]);
    assert Plain(s[dot + 1..]);
    assert EmailPatternSplit(s, at, dot);
  }

  lemma SplitIsValid(s: string, at: int, dot: int)
    requires EmailPatternSplit(s, at, dot)
    ensures IsValidEmail(s)
  {
    forall k | 0 <= k < |s| && k != at ensures s[k] != '@' && !IsWhitespace(s[k]) {
      if k < at {
        assert s[..at][k] == s[k];
      } else if at < k < dot {
        assert s[at + 1..dot][k - at - 1] == s[k];
      } else if dot < k {
        assert s[dot + 1..][k - dot - 1] == s[k];
      }
    }
    CountOnce(s, '@', at);
    assert IndexOf(s, '@') == at;
    var domain := s[at + 1..];
    assert domain[1..|domain| - 1][dot - at - 2] == '.';
  }

  // ---- password strength ------------------------------------------------------

  const MinLength := 8
  const TooShort := "Password must be at least 8 characters long"
  const NoUppercase := "Password must contain at least one uppercase letter"
  const NoLowercase := "Password must contain at least one lowercase letter"
  const NoNumber := "Password must contain at least one number"

  /** The position of each message in the order the checks run. */
  function Rank(message: string): nat {
    if message == TooShort then 0
    else if message == NoUppercase then 1
    else if message == NoLowercase then 2
    else 3
  }

  predicate HasUpper(s: string) { exists i :: 0 <= i < |s| && IsUpper(s[i]) }

  predicate HasLower(s: string) { exists i :: 0 <= i < |s| && IsLower(s[i]) }

  predicate HasDigit(s: string) { exists i :: 0 <= i < |s| && IsDigit(s[i]) }

  datatype PasswordCheck = PasswordCheck(valid: bool, errors: seq<string>)

  /** `validatePassword`: one message per failed rule, in the order length, uppercase,
      lowercase, number; valid when there is none. */
  function ValidatePassword(password: string): (r: PasswordCheck)
    ensures r.valid <==> r.errors == []
    ensures r.valid <==> |password| >= MinLength && HasUpper(password) && HasLower(password) && HasDigit(password)
    ensures TooShort in r.errors <==> |password| < MinLength
    ensures NoUppercase in r.errors <==> !HasUpper(password)
    ensures NoLowercase in r.errors <==> !HasLower(password)
    ensures NoNumber in r.errors <==> !HasDigit(password)
    ensures forall m :: m in r.errors ==> m == TooShort || m == NoUppercase || m == NoLowercase || m == NoNumber
    ensures |r.errors| <= 4
    ensures forall i, j :: 0 <= i < j < |r.errors| ==> Rank(r.errors[i]) < Rank(r.errors[j])
  {
    assert NoUppercase[35] != NoLowercase[35];
    var errors := (if |password| < MinLength then [TooShort] else [])
      + (if !HasUpper(password) then [NoUppercase] else [])
      + (if !HasLower(password) then [NoLowercase] else [])
      + (if !HasDigit(password) then [NoNumber] else []);
    PasswordCheck(|errors| == 0, errors)
  }
}

=== FILE: frontend_phone_auth.dfy ===
/** The browser side of SMS sign-in: the live formatter of the number field, the code
    field's sanitiser and auto-submit, and the `phoneAuthState` record driven by the
    sign-in, verify and resend actions. Each request's outcome is a parameter: the reply
    fields the page reads, or the message of the error the request helper throws. */
module FrontendPhoneAuth {
  import opened Wrappers
  import opened Text
  import opened FrontendAuth
  import AuthHandlers

  // ---- live number formatter --------------------------------------------------

  /** A separator followed by a run of digits. */
  function Group(separator: string, digits: string): string {
    separator + digits
  }

  /** The layout of a digit string: "(ddd) ddd-rest" up to ten digits, "(ddd) rest" for
      three to five, the bare digits below three, and "+d ddd ddd rest" above ten. */
  function Layout(v: string): string {
    var n := |v|;
    if n <= 10 then
      if n >= 6 then Group("(", v[..3]) + Group(") ", v[3..6]) + Group("-", v[6..])
      else if n >= 3 then Group("(", v[..3]) + Group(") ", v[3..])
      else v
    else Group("+", v[..1]) + Group(" ", v[1..4]) + Group(" ", v[4..7]) + Group(" ", v[7..])
  }

  /** The `input` handler of the number field: the field's digits, laid out. */
  function LiveFormat(value: string): (r: string)
    ensures var n := |Digits(value)|;
      && (n < 3 ==> r == Digits(value))
      && (3 <= n <= 5 ==> |r| == n + 3 && r[0] == '(' && r[4] == ')' && r[5] == ' ')
      && (6 <= n <= 10 ==> |r| == n + 4 && r[0] == '(' && r[4] == ')' && r[5] == ' ' && r[9] == '-')
      && (n > 10 ==> |r| == n + 4 && r[0] == '+' && r[2] == ' ' && r[6] == ' ' && r[10] == ' ')
  {
    Layout(Digits(value))
  }

  lemma DigitsOfGroup(separator: string, digits: string)
    requires forall i :: 0 <= i < |separator| ==> !IsDigit(separator[i])
    requires AllDigits(digits)
    ensures Digits(Group(separator, digits)) == digits
  {
    DigitsConcat(separator, digits);
    DropsAll(separator, IsDigit);
    DigitsOfDigits(digits);
  }

  /** Laying out digits adds only separators. */
  lemma LayoutKeepsDigits(v: string)
    requires AllDigits(v)
    ensures Digits(Layout(v)) == v
  {
    var n := |v|;
    if n <= 10 && n >= 6 {
      var a, b, c := Group("(", v[..3]), Group(") ", v[3..6]), Group("-", v[6..]);
      DigitsOfGroup("(", v[..3]);
      DigitsOfGroup(") ", v[3..6]);
      DigitsOfGroup("-", v[6..]);
      DigitsConcat(a, b);
      DigitsConcat(a + b, c);
      assert v[..3] + v[3..6] + v[6..] == v;
    } else if n <= 10 && n >= 3 {
      DigitsOfGroup("(", v[..3]);
      DigitsOfGroup(") ", v[3..]);
      DigitsConcat(Group("(", v[..3]), Group(") ", v[3..]));
      assert v[..3] + v[3..] == v;
    } else if n <= 10 {
      DigitsOfDigits(v);
    } else {
      var a, b, c, d := Group("+", v[..1]), Group(" ", v[1..4]), Group(" ", v[4..7]), Group(" ", v[7..]);
      DigitsOfGroup("+", v[..1]);
      DigitsOfGroup(" ", v[1..4]);
      DigitsOfGroup(" ", v[4..7]);
      DigitsOfGroup(" ", v[7..]);
      DigitsConcat(a, b);
      DigitsConcat(a + b, c);
      DigitsConcat(a + b + c, d);
      assert v[..1] + v[1..4] + v[4..7] + v[7..] == v;
    }
  }

  /** The formatter keeps the field's digits, in order. */
  lemma LiveFormatKeepsDigits(value: string)
    ensures Digits(LiveFormat(value)) == Digits(value)
  {
    LayoutKeepsDigits(Digits(value));
  }

  /** Typing into a formatted field and formatting again changes nothing. */
  lemma LiveFormatIdempotent(value: string)
    ensures LiveFormat(LiveFormat(value)) == LiveFormat(value)
  {
    LiveFormatKeepsDigits(value);
  }

  // ---- verification code field ------------------------------------------------

  /** The `input` handler of the code field: only digits stay. */
  function SanitiseCode(value: string): (r: string)
    ensures AllDigits(r) && IsSubsequence(r, value)
    ensures forall c :: IsDigit(c) ==> Count(r, c) == Count(value, c)
  {
    FilterSelects(value, IsDigit);
    Digits(value)
  }

  /** The field submits the verify form by itself once it holds six digits. */
  predicate AutoSubmits(value: string) {
    |SanitiseCode(value)| == 6
  }

  // ---- phone authentication state ---------------------------------------------

  /** `phoneAuthState`; an absent session is modelled as "". */
  datatype PhoneAuthState = PhoneAuthState(currentPhone: string, currentSession: string, pendingVerification: bool)

  const Initial := PhoneAuthState("", "", false)

  /** The phone form on show. */
  datatype Screen = SignInForm | VerifyForm | Dashboard

  /** The requests the phone page sends. */
  datatype PhoneRequest =
    | InitiateRequest(phoneNumber: string)
    | ConfirmRequest(phoneNumber: string, code: string, session: string)

  /** What a request gives the page: the reply fields it reads, or the message of the error
      the request helper throws for a non-2xx reply or a network failure. */
  datatype Reply = Reply(session: string, authenticationResult: Option<string>)
  datatype RequestOutcome = Answered(reply: Reply) | Failed(message: string)

  /** A handler's effect: the request it sent, if any, the new state and the form on show
      afterwards. Each handler runs from its own form: sign-in from the number form,
      verify and resend from the code form. */
  datatype Transition = Transition(request: Option<PhoneRequest>, state: PhoneAuthState, screen: Screen)

  const NoTokens := "Authentication failed - no tokens received"

  /** Submitting the sign-in form: trim, refuse an empty field, format, refuse a result
      shorter than ten characters, then start the SMS flow. */
  function SubmitPhone(state: PhoneAuthState, field: string, outcome: RequestOutcome): (t: Transition)
    ensures t.request.Some? <==> Trim(field) != [] && |FormatPhoneNumber(Trim(field))| >= 10
    ensures t.request.Some? ==> t.request.value == InitiateRequest(FormatPhoneNumber(Trim(field)))
    ensures t.request.Some? ==>
      && StartsWith(t.request.value.phoneNumber, '+')
      && |t.request.value.phoneNumber| >= 10
    ensures t.request.Some? && outcome.Answered? ==>
      t.state == PhoneAuthState(t.request.value.phoneNumber, outcome.reply.session, true) && t.screen == VerifyForm
    ensures t.request.None? || outcome.Failed? ==> t.state == state && t.screen == SignInForm
  {
    var input := Trim(field);
    if input == [] then Transition(None, state, SignInForm)
    else
      var formatted := FormatPhoneNumber(input);
      if |formatted| < 10 then Transition(None, state, SignInForm)
      else
        var request := Some(InitiateRequest(formatted));
        match outcome
        case Answered(reply) => Transition(request, PhoneAuthState(formatted, reply.session, true), VerifyForm)
        case Failed(_) => Transition(request, state, SignInForm)
  }

  /** After a failed verify the page stays on the code form when the message mentions
      "Invalid" or "Code", and goes back to the number form otherwise. */
  function AfterFailedVerify(message: string): (screen: Screen)
    ensures screen != Dashboard
    ensures screen == VerifyForm <==> Occurs(message, "Invalid") || Occurs(message, "Code")
  {
    if Contains(message, "Invalid") || Contains(message, "Code") then VerifyForm else SignInForm
  }

  /** Submitting the verify form: needs the stored phone and session and a six-character
      code; signs in only when the reply carries tokens, and then clears the state. */
  function SubmitVerification(state: PhoneAuthState, field: string, outcome: RequestOutcome): (t: Transition)
    ensures t.request.Some? <==> state.currentPhone != [] && state.currentSession != [] && |Trim(field)| == 6
    ensures t.request.Some? ==> t.request.value == ConfirmRequest(state.currentPhone, Trim(field), state.currentSession)
    ensures t.screen == Dashboard <==> t.request.Some? && outcome.Answered? && outcome.reply.authenticationResult.Some?
    ensures t.screen == Dashboard ==> t.state == Initial
    ensures t.screen != Dashboard ==> t.state == state
    ensures state.currentPhone == [] || state.currentSession == [] ==> t.screen == SignInForm
    ensures state.currentPhone != [] && state.currentSession != [] && |Trim(field)| != 6 ==> t.screen == VerifyForm
    ensures t.request.Some? && outcome.Failed? ==> t.screen == AfterFailedVerify(outcome.message)
    ensures t.request.Some? && outcome.Answered? && outcome.reply.authenticationResult.None? ==>
      t.screen == AfterFailedVerify(NoTokens)
  {
    var code := Trim(field);
    if state.currentPhone == [] || state.currentSession == [] then Transition(None, state, SignInForm)
    else if code == [] || |code| != 6 then Transition(None, state, VerifyForm)
    else
      var request := Some(ConfirmRequest(state.currentPhone, code, state.currentSession));
      match outcome
      case Answered(reply) =>
        if reply.authenticationResult.Some? then Transition(request, Initial, Dashboard)
        else Transition(request, state, AfterFailedVerify(NoTokens))
      case Failed(message) => Transition(request, state, AfterFailedVerify(message))
  }

  /** `resendPhoneCode`: re-initiates for the stored phone; a success replaces only the
      session. */
  function ResendCode(state: PhoneAuthState, outcome: RequestOutcome): (t: Transition)
    ensures t.request.Some? <==> state.currentPhone != []
    ensures t.request.Some? ==> t.request.value == InitiateRequest(state.currentPhone)
    ensures t.state.currentPhone == state.currentPhone && t.state.pendingVerification == state.pendingVerification
    ensures t.state.currentSession == if t.request.Some? && outcome.Answered? then outcome.reply.session else state.currentSession
    ensures t.screen == if state.currentPhone == [] then SignInForm else VerifyForm
  {
    if state.currentPhone == [] then Transition(None, state, SignInForm)
    else
      var request := Some(InitiateRequest(state.currentPhone));
      match outcome
      case Answered(reply) => Transition(request, state.(currentSession := reply.session), VerifyForm)
      case Failed(_) => Transition(request, state, VerifyForm)
  }

  /** A code the field auto-submits passes the verify form's six-character check. */
  lemma AutoSubmittedCodePassesGuard(value: string)
    requires AutoSubmits(value)
    ensures |Trim(SanitiseCode(value))| == 6
  {
    TrimDigits(SanitiseCode(value));
  }

  /** Sign-in followed by a verify that gets tokens returns the page to its initial state;
      the confirm request names the number sign-in sent and the session it received. */
  lemma SignInThenVerify(state: PhoneAuthState, field: string, reply: Reply, code: string, signedIn: Reply)
    requires Trim(field) != [] && |FormatPhoneNumber(Trim(field))| >= 10
    requires reply.session != [] && |Trim(code)| == 6 && signedIn.authenticationResult.Some?
    ensures var first := SubmitPhone(state, field, Answered(reply));
      var second := SubmitVerification(first.state, code, Answered(signedIn));
      && second.request == Some(ConfirmRequest(first.request.value.phoneNumber, Trim(code), reply.session))
      && second.state == Initial && second.screen == Dashboard
  {
    var first := SubmitPhone(state, field, Answered(reply));
    assert first.state.currentPhone == first.request.value.phoneNumber;
    assert |first.state.currentPhone| >= 10;
  }

  /** A failure message with no 'I' and no 'C' sends the page back to the number form. */
  lemma PlainFailureLeavesVerify(message: string)
    requires 'I' !in message && 'C' !in message
    ensures AfterFailedVerify(message) == SignInForm
  {
    NotContainedWithoutHead(message, "Invalid");
    NotContainedWithoutHead(message, "Code");
  }

  /** A wrong code, which the confirm handler reports as "Invalid verification code",
      keeps the code form for another try. */
  lemma WrongCodeStaysOnVerify()
    ensures AfterFailedVerify(AuthHandlers.InvalidCodeMessage) == VerifyForm
  {
    assert "Invalid" <= AuthHandlers.InvalidCodeMessage;
  }

  /** A reply without tokens sends the page back to the number form. */
  lemma MissingTokensLeaveVerify()
    ensures AfterFailedVerify(NoTokens) == SignInForm
  {
    assert 'I' !in NoTokens && 'C' !in NoTokens;
    PlainFailureLeavesVerify(NoTokens);
  }
}

=== FILE: otp_code.dfy ===
/** The six-digit one-time code `Math.floor(100000 + Math.random() * 900000).toString()`,
    which appears in the initiate and resend handlers and in the challenge trigger. */
module OtpCode {
  import opened Text

  /** The integer part of `Math.random() * 900000`: the only random input of a code. */
  type CodeDraw = k: int | 0 <= k < 900000

  const LowestCode: nat := 100000

  /** A decimal numeral of six digits without a leading zero. */
  predicate IsSixDigitCode(s: string) {
    |s| == 6 && AllDigits(s) && s[0] != '0'
  }

  /** The code a given draw produces. */
  function VerificationCode(draw: CodeDraw): (code: string)
    ensures IsSixDigitCode(code)
    ensures DecimalValue(code) == LowestCode + draw
  {
    DecimalWidth(LowestCode + draw, 5);
    NatToDecimal(LowestCode + draw)
  }

  /** Different draws give different codes. */
  lemma VerificationCodeInjective(a: CodeDraw, b: CodeDraw)
    ensures VerificationCode(a) == VerificationCode(b) <==> a == b
  {
  }

  /** Every six-digit numeral without a leading zero is the code of exactly one draw:
      the generated codes are the numerals 100000 through 999999. */
  lemma EveryCodeIsDrawn(s: string)
    requires IsSixDigitCode(s)
    ensures 100000 <= DecimalValue(s) <= 999999
    ensures VerificationCode(DecimalValue(s) - LowestCode) == s
  {
    DecimalBounds(s);
    DecimalRoundTrip(s);
  }
}

=== FILE: phone_otp.dfy ===
/** Passwordless phone login by temporary password: the one-time code is stored as the
    user's temporary password and presented back as the password at sign-in.
    Initiate cleans the number, draws a code, creates the user (or, if the username is
    taken, overwrites its temporary password) and texts the code; confirm signs in with
    the code and answers the NEW_PASSWORD_REQUIRED challenge with a random password;
    resend overwrites the temporary password with a new code and texts it. */
module PhoneOtp {
  import opened Wrappers
  import opened Text
  import opened OtpCode
  import opened Provider

  /** Appended to the code to meet the provider's password policy. */
  const CredentialSuffix := "A!"
  /** What resend appends instead, as written. */
  const ResendSuffixAsWritten := "Aa!"
  /** Appended to the random part of the permanent password confirm sets. */
  const PermanentSuffix := "A1!"
  const SmsPrefix := "Your verification code is: "
  const PhoneAuthSession := "phone-auth-session"
  const UsernameExistsException := "UsernameExistsException"
  const NewPasswordRequired := "NEW_PASSWORD_REQUIRED"

  // ---- phone cleaning -----------------------------------------------------

  predicate IsPhoneChar(c: char) { c == '+' || IsDigit(c) }

  /** `phoneNumber.replace(/\s/g, '').replace(/[^\+\d]/g, '')`: the '+' signs and digits
      of the input, in order. Every '+' is kept, not only a leading one. */
  function CleanPhone(raw: string): (clean: string)
    ensures forall i :: 0 <= i < |clean| ==> IsPhoneChar(clean[i])
    ensures clean == Filter(raw, IsPhoneChar)
  {
    FilterCompose(raw, NotWhitespace, IsPhoneChar, IsPhoneChar);
    Filter(Filter(raw, NotWhitespace), IsPhoneChar)
  }

  /** The cleaned number is the input with everything but '+' and digits deleted: a
      subsequence in which every '+' and every digit occurs as often as in the input. */
  lemma CleanPhoneSelects(raw: string)
    ensures IsSubsequence(CleanPhone(raw), raw)
    ensures forall c :: IsPhoneChar(c) ==> Count(CleanPhone(raw), c) == Count(raw, c)
    ensures forall c :: !IsPhoneChar(c) ==> Count(CleanPhone(raw), c) == 0
  {
    FilterSelects(raw, IsPhoneChar);
  }

  lemma CleanPhoneIdempotent(raw: string)
    ensures CleanPhone(CleanPhone(raw)) == CleanPhone(raw)
  {
    FilterIdempotent(raw, IsPhoneChar);
  }

  /** A string of '+' signs and digits is already clean. */
  lemma CleanPhoneFixes(s: string)
    requires forall i :: 0 <= i < |s| ==> IsPhoneChar(s[i])
    ensures CleanPhone(s) == s
  {
    FilterKeepsAll(s, IsPhoneChar);
  }

  // ---- destination masking --------------------------------------------------

  /** `/(\+\d{2})\d{3}(\d{2})(\d{2})/` matches at `i`: a '+' followed by nine digits. */
  predicate MatchesAt(s: string, i: nat) {
    i + 10 <= |s| && s[i] == '+' && forall k :: i < k < i + 10 ==> IsDigit(s[k])
  }

  /** The leftmost match at or after `from`. */
  function FirstMatch(s: string, from: nat): (r: Option<nat>)
    requires from <= |s|
    ensures r.Some? ==> from <= r.value && MatchesAt(s, r.value)
    ensures r.Some? ==> forall j :: from <= j < r.value ==> !MatchesAt(s, j)
    ensures r.None? ==> forall j :: from <= j ==> !MatchesAt(s, j)
    decreases |s| - from
  {
    if |s| < from + 10 then None
    else if MatchesAt(s, from) then Some(from)
    else FirstMatch(s, from + 1)
  }

  /** `s.replace(/(\+\d{2})\d{3}(\d{2})(\d{2})/, '$1***$2$3')`: at the leftmost match only,
      the three digits after "+dd" become "***"; everything else is kept. */
  function MaskDestination(s: string): (r: string)
    ensures |r| == |s|
    ensures (forall j :: !MatchesAt(s, j)) ==> r == s
    ensures forall i :: FirstMatch(s, 0) == Some(i) ==>
      forall k :: 0 <= k < |s| ==> r[k] == if i + 3 <= k < i + 6 then '*' else s[k]
  {
    match FirstMatch(s, 0)
    case None => s
    case Some(i) => s[..i + 3] + "***" + s[i + 6..]
  }

  /** The masked destination differs from the number exactly when the pattern occurs. */
  lemma MaskChangesIffMatch(s: string)
    ensures MaskDestination(s) != s <==> exists j :: MatchesAt(s, j)
  {
    match FirstMatch(s, 0)
    case None =>
    case Some(i) =>
      assert MaskDestination(s)[i + 3] == '*' && IsDigit(s[i + 3]);
  }

  // ---- the three handlers -----------------------------------------------------

  function OtpCredential(code: string): string {
    code + CredentialSuffix
  }

  function SmsText(code: string): string {
    SmsPrefix + code
  }

  function PhoneAttributes(phone: string): seq<Attribute> {
    [Attribute("phone_number", phone), Attribute("phone_number_verified", "true")]
  }

  /** The create request failed only because the username is taken. */
  predicate UsernameTaken(create: Outcome) {
    create.Threw? && create.fault.name == UsernameExistsException
  }

  /** Initiate stores the code: the user was created, or it existed and its password was set. */
  predicate CredentialWritten(create: Outcome, setPassword: Outcome) {
    create.Done? || (UsernameTaken(create) && setPassword.Done?)
  }

  function Last(steps: seq<Step>): Step
    requires steps != []
  {
    steps[|steps| - 1]
  }

  predicate IsCredentialWrite(c: Call) {
    c.AdminCreateUser? || c.AdminSetUserPassword?
  }

  /** Every text message directly follows a successful write of the credential of the
      user it is sent to. */
  predicate SmsOnlyAfterWrite(steps: seq<Step>) {
    forall i :: 0 <= i < |steps| && steps[i].call.PublishSms? ==>
      && 0 < i
      && steps[i - 1].succeeded
      && IsCredentialWrite(steps[i - 1].call)
      && steps[i - 1].call.username == steps[i].call.phoneNumber
  }

  /** Texts `code` to `username` after `writes`, which ended in a successful write. */
  function Deliver(writes: seq<Step>, username: string, code: string, sms: Outcome, message: string, session: Option<string>): (run: Run)
    requires writes != [] && Last(writes).succeeded && IsCredentialWrite(Last(writes).call)
    requires Last(writes).call.username == username
    requires forall i :: 0 <= i < |writes| ==> !writes[i].call.PublishSms?
    ensures |run.steps| == |writes| + 1 && run.steps[..|writes|] == writes
    ensures SmsOnlyAfterWrite(run.steps) && PublishesSms(run.steps)
    ensures Last(run.steps).call == PublishSms(username, SmsText(code))
    ensures run.response.statusCode == 200 <==> sms.Done?
    ensures sms.Threw? ==> run.response == ErrorResponse(sms.fault)
  {
    var steps := writes + [Step(PublishSms(username, SmsText(code)), sms.Done?)];
    assert steps[|writes| - 1] == Last(writes);
    assert forall i :: 0 <= i < |writes| ==> steps[i] == writes[i];
    assert steps[|writes|].call.PublishSms?;
    assert SmsOnlyAfterWrite(steps);
    var response := if sms.Threw? then ErrorResponse(sms.fault)
                    else Response(200, CodeSent(message, session, MaskDestination(username)));
    Run(steps, response)
  }

  /** `initiatePhoneAuth`, given the code draw and the outcomes of create, set-password and
      publish. */
  function Initiate(phoneNumber: string, draw: CodeDraw, create: Outcome, setPassword: Outcome, sms: Outcome): (run: Run)
    ensures run.steps != [] && run.steps[0] == Step(AdminCreateUser(CleanPhone(phoneNumber), PhoneAttributes(CleanPhone(phoneNumber)), VerificationCode(draw) + CredentialSuffix, true), create.Done?)
    ensures SmsOnlyAfterWrite(run.steps)
    ensures PublishesSms(run.steps) <==> CredentialWritten(create, setPassword)
    ensures PublishesSms(run.steps) ==>
      && Last(run.steps).call.PublishSms?
      && Last(run.steps).call.phoneNumber == CleanPhone(phoneNumber)
      && EndsWith(Last(run.steps).call.message, VerificationCode(draw))
    ensures run.response.statusCode == 200 <==> CredentialWritten(create, setPassword) && sms.Done?
    ensures create.Threw? && !UsernameTaken(create) ==> run == Run([run.steps[0]], ErrorResponse(create.fault))
    ensures UsernameTaken(create) && setPassword.Threw? ==> run.response == ErrorResponse(setPassword.fault)
    ensures CredentialWritten(create, setPassword) && sms.Threw? ==> run.response == ErrorResponse(sms.fault)
    ensures run.response.statusCode == 200 ==>
      run.response.body == CodeSent("SMS code sent", Some(PhoneAuthSession), MaskDestination(CleanPhone(phoneNumber)))
  {
    var username := CleanPhone(phoneNumber);
    var code := VerificationCode(draw);
    var password := OtpCredential(code);
    var createStep := Step(AdminCreateUser(username, PhoneAttributes(username), password, true), create.Done?);
    if create.Done? then
      Deliver([createStep], username, code, sms, "SMS code sent", Some(PhoneAuthSession))
    else if !UsernameTaken(create) then
      assert !PublishesSms([createStep]);
      Run([createStep], ErrorResponse(create.fault))
    else
      var writes := [createStep, Step(AdminSetUserPassword(username, password, true), setPassword.Done?)];
      if setPassword.Threw? then
        assert !PublishesSms(writes);
        Run(writes, ErrorResponse(setPassword.fault))
      else
        Deliver(writes, username, code, sms, "SMS code sent", Some(PhoneAuthSession))
  }

  /** `resendPhoneCode` with the credential suffix as a parameter. */
  function ResendWith(suffix: string, phoneNumber: string, draw: CodeDraw, setPassword: Outcome, sms: Outcome): (run: Run)
    ensures run.steps != [] && run.steps[0] == Step(AdminSetUserPassword(CleanPhone(phoneNumber), VerificationCode(draw) + suffix, true), setPassword.Done?)
    ensures SmsOnlyAfterWrite(run.steps)
    ensures |run.steps| == if setPassword.Done? then 2 else 1
    ensures PublishesSms(run.steps) <==> setPassword.Done?
    ensures PublishesSms(run.steps) ==>
      && Last(run.steps).call.PublishSms?
      && Last(run.steps).call.phoneNumber == CleanPhone(phoneNumber)
      && EndsWith(Last(run.steps).call.message, VerificationCode(draw))
    ensures run.response.statusCode == 200 <==> setPassword.Done? && sms.Done?
    ensures setPassword.Threw? ==> run == Run([run.steps[0]], ErrorResponse(setPassword.fault))
    ensures run.response.statusCode == 200 ==>
      run.response.body == CodeSent("New SMS code sent", None, MaskDestination(CleanPhone(phoneNumber)))
  {
    var username := CleanPhone(phoneNumber);
    var code := VerificationCode(draw);
    var setStep := Step(AdminSetUserPassword(username, code + suffix, true), setPassword.Done?);
    if setPassword.Threw? then
      assert !PublishesSms([setStep]);
      Run([setStep], ErrorResponse(setPassword.fault))
    else
      Deliver([setStep], username, code, sms, "New SMS code sent", None)
  }

  /** Resend as written: the new code is stored with the suffix "Aa!". */
  function ResendAsWritten(phoneNumber: string, draw: CodeDraw, setPassword: Outcome, sms: Outcome): (run: Run)
    ensures run.steps != [] && run.steps[0].call.AdminSetUserPassword?
    ensures run.steps[0].call.password == VerificationCode(draw) + ResendSuffixAsWritten
  {
    ResendWith(ResendSuffixAsWritten, phoneNumber, draw, setPassword, sms)
  }

  /** Resend storing the code with the same suffix initiate and confirm use. */
  function Resend(phoneNumber: string, draw: CodeDraw, setPassword: Outcome, sms: Outcome): (run: Run)
    ensures run.steps != [] && run.steps[0].call.AdminSetUserPassword?
    ensures run.steps[0].call.password == OtpCredential(VerificationCode(draw))
  {
    ResendWith(CredentialSuffix, phoneNumber, draw, setPassword, sms)
  }

  /** The sign-in reply asks for a permanent password. */
  predicate RotationDemanded(signIn: AuthOutcome) {
    signIn.Replied? && signIn.reply.challengeName == Some(NewPasswordRequired)
  }

  /** `confirmPhoneAuth`, given the outcome of the password sign-in, the random part of
      the permanent password and the outcome of the challenge answer. The request's
      `session` field is not used by the handler and is not a parameter. */
  function Confirm(phoneNumber: string, code: string, signIn: AuthOutcome, randomPart: string, respond: AuthOutcome): (run: Run)
    ensures run.steps != [] && run.steps[0] == Step(PasswordAuth(CleanPhone(phoneNumber), OtpCredential(code)), signIn.Replied?)
    ensures !PublishesSms(run.steps)
    ensures |run.steps| == if RotationDemanded(signIn) then 2 else 1
    ensures RotationDemanded(signIn) ==>
      run.steps[1] == Step(RespondNewPassword(signIn.reply.session, CleanPhone(phoneNumber), randomPart + PermanentSuffix), respond.Replied?)
    ensures run.response.statusCode == 200 <==> signIn.Replied? && (RotationDemanded(signIn) ==> respond.Replied?)
    ensures run.response.statusCode == 200 ==>
      run.response.body == SignedIn(if RotationDemanded(signIn) then respond.reply.authenticationResult else signIn.reply.authenticationResult)
    ensures signIn.Rejected? ==> run.response == ErrorResponse(signIn.fault)
    ensures RotationDemanded(signIn) && respond.Rejected? ==> run.response == ErrorResponse(respond.fault)
  {
    var username := CleanPhone(phoneNumber);
    var signInStep := Step(PasswordAuth(username, OtpCredential(code)), signIn.Replied?);
    assert !PublishesSms([signInStep]);
    if signIn.Rejected? then
      Run([signInStep], ErrorResponse(signIn.fault))
    else if RotationDemanded(signIn) then
      var respondStep := Step(RespondNewPassword(signIn.reply.session, username, randomPart + PermanentSuffix), respond.Replied?);
      assert !PublishesSms([signInStep, respondStep]);
      if respond.Rejected? then Run([signInStep, respondStep], ErrorResponse(respond.fault))
      else Run([signInStep, respondStep], Response(200, SignedIn(respond.reply.authenticationResult)))
    else
      Run([signInStep], Response(200, SignedIn(signIn.reply.authenticationResult)))
  }

  // ---- properties over the provider's store ---------------------------------------

  /** The password confirm presents for `code`. */
  function Presented(phoneNumber: string, code: string, signIn: AuthOutcome, randomPart: string, respond: AuthOutcome): Call {
    Confirm(phoneNumber, code, signIn, randomPart, respond).steps[0].call
  }

  /** A successful initiate leaves exactly the code's credential under the cleaned number,
      and nothing else changes; a failed write leaves the store as it was. */
  lemma InitiateStoresCode(dir: Directory, phoneNumber: string, draw: CodeDraw, create: Outcome, setPassword: Outcome, sms: Outcome)
    ensures var after := Apply(dir, Initiate(phoneNumber, draw, create, setPassword, sms).steps);
      after == if CredentialWritten(create, setPassword)
               then dir[CleanPhone(phoneNumber) := OtpCredential(VerificationCode(draw))]
               else dir
  {
    var u := CleanPhone(phoneNumber);
    var pw := OtpCredential(VerificationCode(draw));
    var smsStep := Step(PublishSms(u, SmsText(VerificationCode(draw))), sms.Done?);
    var steps := Initiate(phoneNumber, draw, create, setPassword, sms).steps;
    InitiateSteps(phoneNumber, draw, create, setPassword, sms);
    if create.Done? {
      ApplyNoWrite(dir[u := pw], [smsStep]);
    } else if !UsernameTaken(create) || setPassword.Threw? {
      ApplyNoWrite(dir, steps);
    } else {
      assert Apply(dir, steps) == Apply(dir, steps[1..]);
      ApplyNoWrite(dir[u := pw], [smsStep]);
    }
  }

  /** The requests initiate sends, case by case. */
  lemma InitiateSteps(phoneNumber: string, draw: CodeDraw, create: Outcome, setPassword: Outcome, sms: Outcome)
    ensures var u := CleanPhone(phoneNumber);
      var pw := OtpCredential(VerificationCode(draw));
      var createStep := Step(AdminCreateUser(u, PhoneAttributes(u), pw, true), create.Done?);
      var setStep := Step(AdminSetUserPassword(u, pw, true), setPassword.Done?);
      var smsStep := Step(PublishSms(u, SmsText(VerificationCode(draw))), sms.Done?);
      Initiate(phoneNumber, draw, create, setPassword, sms).steps ==
        if create.Done? then [createStep, smsStep]
        else if !UsernameTaken(create) then [createStep]
        else if setPassword.Threw? then [createStep, setStep]
        else [createStep, setStep, smsStep]
  {
  }

  /** Writes that fail and requests that write nothing leave the store unchanged. */
  lemma {:induction false} ApplyNoWrite(dir: Directory, steps: seq<Step>)
    requires forall i :: 0 <= i < |steps| ==> !steps[i].succeeded || Written(steps[i].call).None?
    ensures Apply(dir, steps) == dir
  {
    if steps != [] {
      ApplyNoWrite(dir, steps[1..]);
    }
  }

  /** Initiate followed by confirm with the texted code, from any spelling of the same
      number, presents exactly the stored credential. */
  lemma InitiateThenConfirm(dir: Directory, phoneNumber: string, draw: CodeDraw, create: Outcome, setPassword: Outcome, sms: Outcome,
                            confirmPhone: string, signIn: AuthOutcome, randomPart: string, respond: AuthOutcome)
    requires Initiate(phoneNumber, draw, create, setPassword, sms).response.statusCode == 200
    requires CleanPhone(confirmPhone) == CleanPhone(phoneNumber)
    ensures var stored := Apply(dir, Initiate(phoneNumber, draw, create, setPassword, sms).steps);
      var sent := Presented(confirmPhone, VerificationCode(draw), signIn, randomPart, respond);
      Accepts(stored, sent.username, sent.password)
  {
    InitiateStoresCode(dir, phoneNumber, draw, create, setPassword, sms);
  }

  /** Resend as written stores `code + "Aa!"` but confirm presents `code + "A!"`: once
      the resend's write succeeds, no code whatsoever is accepted. */
  lemma ResendAsWrittenLocksOut(dir: Directory, phoneNumber: string, draw: CodeDraw, setPassword: Outcome, sms: Outcome,
                                signIn: AuthOutcome, randomPart: string, respond: AuthOutcome)
    requires setPassword.Done?
    ensures var stored := Apply(dir, ResendAsWritten(phoneNumber, draw, setPassword, sms).steps);
      forall code: string :: var sent := Presented(phoneNumber, code, signIn, randomPart, respond);
        sent.username == CleanPhone(phoneNumber) && !Accepts(stored, sent.username, sent.password)
  {
    var storedPw := VerificationCode(draw) + ResendSuffixAsWritten;
    ResendStoresCode(ResendSuffixAsWritten, dir, phoneNumber, draw, setPassword, sms);
    forall code: string
      ensures OtpCredential(code) != storedPw
    {
      var presented := OtpCredential(code);
      assert presented[|presented| - 2] == 'A' && storedPw[|storedPw| - 2] == 'a';
    }
  }

  /** A resend whose write succeeds leaves exactly `code + suffix` under the cleaned number. */
  lemma ResendStoresCode(suffix: string, dir: Directory, phoneNumber: string, draw: CodeDraw, setPassword: Outcome, sms: Outcome)
    ensures var after := Apply(dir, ResendWith(suffix, phoneNumber, draw, setPassword, sms).steps);
      after == if setPassword.Done? then dir[CleanPhone(phoneNumber) := VerificationCode(draw) + suffix] else dir
  {
    var steps := ResendWith(suffix, phoneNumber, draw, setPassword, sms).steps;
    var afterSet := if setPassword.Done? then dir[CleanPhone(phoneNumber) := VerificationCode(draw) + suffix] else dir;
    assert Apply(dir, steps) == Apply(afterSet, steps[1..]);
    ApplyNoWrite(afterSet, steps[1..]);
  }

  /** With the suffix corrected, resend followed by confirm with the newly texted code
      presents exactly the stored credential, and a code texted earlier is accepted only
      if it happens to equal the new one. */
  lemma ResendThenConfirm(dir: Directory, phoneNumber: string, draw: CodeDraw, setPassword: Outcome, sms: Outcome,
                          earlier: CodeDraw, signIn: AuthOutcome, randomPart: string, respond: AuthOutcome)
    requires Resend(phoneNumber, draw, setPassword, sms).response.statusCode == 200
    ensures var stored := Apply(dir, Resend(phoneNumber, draw, setPassword, sms).steps);
      var sent := Presented(phoneNumber, VerificationCode(draw), signIn, randomPart, respond);
      Accepts(stored, sent.username, sent.password)
    ensures var stored := Apply(dir, Resend(phoneNumber, draw, setPassword, sms).steps);
      var previous := Presented(phoneNumber, VerificationCode(earlier), signIn, randomPart, respond);
      Accepts(stored, previous.username, previous.password) <==> earlier == draw
  {
    ResendStoresCode(CredentialSuffix, dir, phoneNumber, draw, setPassword, sms);
    var a, b := VerificationCode(earlier), VerificationCode(draw);
    VerificationCodeInjective(earlier, draw);
    if OtpCredential(a) == OtpCredential(b) {
      assert a == OtpCredential(a)[..6] == OtpCredential(b)[..6] == b;
    }
  }

  /** When the sign-in demands a permanent password and the answer succeeds, the code's
      credential is replaced by one ending in "A1!", so the same code is refused afterwards. */
  lemma ConfirmRetiresCode(dir: Directory, phoneNumber: string, code: string, signIn: AuthOutcome, randomPart: string, respond: AuthOutcome)
    requires RotationDemanded(signIn) && respond.Replied?
    ensures var after := Apply(dir, Confirm(phoneNumber, code, signIn, randomPart, respond).steps);
      !Accepts(after, CleanPhone(phoneNumber), OtpCredential(code))
  {
    var run := Confirm(phoneNumber, code, signIn, randomPart, respond);
    var u := CleanPhone(phoneNumber);
    var newPw := randomPart + PermanentSuffix;
    assert Written(run.steps[0].call).None?;
    assert run.steps[1..][1..] == [];
    assert Apply(dir, run.steps) == Apply(dir, run.steps[1..]) == dir[u := newPw];
    var presented := OtpCredential(code);
    assert presented[|presented| - 2] == 'A' && newPw[|newPw| - 2] == '1';
  }

  /** A delivery failure after a successful write leaves the new code usable: the
      credential is written before the message is published. */
  lemma DeliveryFailureKeepsCode(dir: Directory, phoneNumber: string, draw: CodeDraw, create: Outcome, setPassword: Outcome, sms: Outcome)
    requires CredentialWritten(create, setPassword) && sms.Threw?
    ensures Initiate(phoneNumber, draw, create, setPassword, sms).response.statusCode == 400
    ensures Accepts(Apply(dir, Initiate(phoneNumber, draw, create, setPassword, sms).steps), CleanPhone(phoneNumber), OtpCredential(VerificationCode(draw)))
  {
    InitiateStoresCode(dir, phoneNumber, draw, create, setPassword, sms);
  }

  /** Separators anywhere in the number do not change the cleaned number, so spaced,
      dashed and compact spellings of one number name one user. */
  lemma SeparatorsIgnored(a: string, separators: string, b: string)
    requires forall i :: 0 <= i < |separators| ==> !IsPhoneChar(separators[i])
    ensures CleanPhone(a + (separators + b)) == CleanPhone(a + b)
  {
    FilterConcat(a, separators + b, IsPhoneChar);
    FilterConcat(separators, b, IsPhoneChar);
    FilterConcat(a, b, IsPhoneChar);
    DropsAll(separators, IsPhoneChar);
  }

  /** Masking on a concrete number: the area-code digits are hidden. */
  lemma MaskExample()
    ensures MaskDestination("+15551234567") == "+15***234567"
  {
    var s := "+15551234567";
    assert MatchesAt(s, 0);
    assert FirstMatch(s, 0) == Some(0);
  }
}

=== FILE: provider.dfy ===
/** The identity provider and SMS service as the handlers see them: the requests they
    send, the outcome each request can have, the HTTP responses the handlers build,
    and the provider's user store reduced to a map from username to current password. */
module Provider {
  import opened Wrappers

  /** A thrown SDK error: its `name` and `message`. */
  datatype Fault = Fault(name: string, message: string)

  /** Outcome of a request whose reply the handlers do not read. */
  datatype Outcome = Done | Threw(fault: Fault)

  datatype Tokens = Tokens(accessToken: string, refreshToken: string, idToken: string)

  /** The fields of an authentication reply the handlers read. */
  datatype AuthReply = AuthReply(challengeName: Option<string>, session: Option<string>, authenticationResult: Option<Tokens>)

  /** Outcome of `InitiateAuth`, `AdminInitiateAuth` or `RespondToAuthChallenge`. */
  datatype AuthOutcome = Replied(reply: AuthReply) | Rejected(fault: Fault)

  datatype Attribute = Attribute(name: string, value: string)

  /** The provider and SMS requests the phone-login handlers send. */
  datatype Call =
      /** `AdminCreateUser`; `suppressInvitation` is `MessageAction: 'SUPPRESS'`, which stops the
          provider from sending its own invitation carrying the temporary password. */
    | AdminCreateUser(username: string, attributes: seq<Attribute>, temporaryPassword: string, suppressInvitation: bool)
    | AdminSetUserPassword(username: string, password: string, temporary: bool)
      /** `InitiateAuth` with flow USER_PASSWORD_AUTH. */
    | PasswordAuth(username: string, password: string)
      /** `RespondToAuthChallenge` answering NEW_PASSWORD_REQUIRED. */
    | RespondNewPassword(session: Option<string>, username: string, newPassword: string)
      /** `AdminInitiateAuth` with flow CUSTOM_AUTH. */
    | CustomAuth(username: string)
      /** `RespondToAuthChallenge` answering CUSTOM_CHALLENGE. */
    | RespondCustomChallenge(customSession: string, username: string, answer: string)
      /** SNS `Publish` of a text message. */
    | PublishSms(phoneNumber: string, message: string)

  /** One request a handler sent and whether it succeeded. */
  datatype Step = Step(call: Call, succeeded: bool)

  /** The bodies the handlers return. */
  datatype Body =
    | CodeSent(message: string, session: Option<string>, destination: string)
    | ChallengeIssued(session: Option<string>, challengeName: Option<string>, newUser: bool)
    | SignedIn(authenticationResult: Option<Tokens>)
    | ErrorBody(error: string, message: string)

  datatype Response = Response(statusCode: int, body: Body)

  /** What one handler invocation did: the requests in order, and its response. */
  datatype Run = Run(steps: seq<Step>, response: Response)

  /** The catch-all of every handler: status 400 carrying the error's name and message. */
  function ErrorResponse(f: Fault): (r: Response)
    ensures r.statusCode == 400 && r.body.ErrorBody? && r.body.error == f.name
  {
    Response(400, ErrorBody(f.name, f.message))
  }

  predicate PublishesSms(steps: seq<Step>) {
    exists i :: 0 <= i < |steps| && steps[i].call.PublishSms?
  }

  // ---- the provider's user store ------------------------------------------

  /** Current password of every user the handlers have written. */
  type Directory = map<string, string>

  /** The username whose password a successful `call` replaces, if any. */
  function Written(call: Call): Option<(string, string)> {
    match call
    case AdminCreateUser(u, _, pw, _) => Some((u, pw))
    case AdminSetUserPassword(u, pw, _) => Some((u, pw))
    case RespondNewPassword(_, u, pw) => Some((u, pw))
    case _ => None
  }

  /** The store after the successful writes of `steps`, in order. */
  function Apply(dir: Directory, steps: seq<Step>): (d: Directory)
    ensures forall u :: u in dir ==> u in d
    ensures forall u :: u in d && u !in dir ==> exists i :: 0 <= i < |steps| && steps[i].succeeded && Written(steps[i].call).Some? && Written(steps[i].call).value.0 == u
    decreases |steps|
  {
    if steps == [] then dir
    else
      var s := steps[0];
      var next := if s.succeeded && Written(s.call).Some? then dir[Written(s.call).value.0 := Written(s.call).value.1] else dir;
      var d := Apply(next, steps[1..]);
      assert forall u :: u in d && u !in next ==> exists i :: 0 <= i < |steps| && steps[i].succeeded && Written(steps[i].call).Some? && Written(steps[i].call).value.0 == u by {
        forall u | u in d && u !in next
          ensures exists i :: 0 <= i < |steps| && steps[i].succeeded && Written(steps[i].call).Some? && Written(steps[i].call).value.0 == u
        {
          var j :| 0 <= j < |steps[1..]| && steps[1..][j].succeeded && Written(steps[1..][j].call).Some? && Written(steps[1..][j].call).value.0 == u;
          assert steps[j + 1] == steps[1..][j];
        }
      }
      d
  }

  /** The provider accepts `password` for `username` when it is that user's current one. */
  predicate Accepts(dir: Directory, username: string, password: string) {
    username in dir && dir[username] == password
  }
}

=== FILE: text.dfy ===
/** Character classes and string operations shared by the handlers and the frontend:
    the JavaScript regex classes `\d`, `\s`, `[A-Z]`, `[a-z]`, filtering replaces such as
    `s.replace(/\D/g, '')`, occurrence counts, `trim()` and `Number.prototype.toString()`. */
module Text {

  /** The JavaScript class `\d`: an ASCII decimal digit. */
  predicate IsDigit(c: char) { '0' <= c <= '9' }

  predicate IsUpper(c: char) { 'A' <= c <= 'Z' }

  predicate IsLower(c: char) { 'a' <= c <= 'z' }

  /** The JavaScript class `\s`, which is also the set `String.prototype.trim` strips:
      tab, line feed, vertical tab, form feed, carriage return, space, and the Unicode
      space separators, line and paragraph separators and the byte-order mark. */
  predicate IsWhitespace(c: char) {
    var n := c as int;
    || n == 0x09 || n == 0x0A || n == 0x0B || n == 0x0C || n == 0x0D || n == 0x20
    || n == 0xA0 || n == 0x1680 || (0x2000 <= n <= 0x200A) || n == 0x2028 || n == 0x2029
    || n == 0x202F || n == 0x205F || n == 0x3000 || n == 0xFEFF
  }

  predicate NotWhitespace(c: char) { !IsWhitespace(c) }

  predicate AllDigits(s: string) { forall i :: 0 <= i < |s| ==> IsDigit(s[i]) }

  predicate StartsWith(s: string, c: char) { |s| > 0 && s[0] == c }

  predicate EndsWith(s: string, suffix: string) { |suffix| <= |s| && s[|s| - |suffix|..] == suffix }

  /** `t` occurs in `s` starting at position `i`. */
  predicate OccursAt(s: string, t: string, i: int) {
    0 <= i <= |s| - |t| && s[i..i + |t|] == t
  }

  ghost predicate Occurs(s: string, t: string) {
    exists i :: OccursAt(s, t, i)
  }

  /** An occurrence is at the front or in the tail. */
  lemma OccursStep(s: string, t: string)
    requires s != []
    ensures Occurs(s, t) <==> t <= s || Occurs(s[1..], t)
  {
    if Occurs(s, t) && !(t <= s) {
      var i :| OccursAt(s, t, i);
      assert i != 0 by { assert s[0..|t|] == s[..|t|]; }
      assert s[1..][i - 1..i - 1 + |t|] == s[i..i + |t|];
      assert OccursAt(s[1..], t, i - 1);
    }
    if t <= s {
      assert OccursAt(s, t, 0);
    } else if Occurs(s[1..], t) {
      var j :| OccursAt(s[1..], t, j);
      assert s[1..][j..j + |t|] == s[j + 1..j + 1 + |t|];
      assert OccursAt(s, t, j + 1);
    }
  }

  /** `s.includes(t)`: scans `s` from the front, and holds exactly when `t` occurs in `s`. */
  predicate Contains(s: string, t: string): (b: bool)
    ensures b <==> Occurs(s, t)
    decreases |s|
  {
    if t <= s then
      assert OccursAt(s, t, 0);
      true
    else if s == [] then
      false
    else
      OccursStep(s, t);
      Contains(s[1..], t)
  }

  /** A string does not contain a needle whose first character it lacks. */
  lemma {:induction false} NotContainedWithoutHead(s: string, t: string)
    requires t != [] && t[0] !in s
    ensures !Contains(s, t)
  {
    if s != [] {
      assert t[0] != s[0];
      NotContainedWithoutHead(s[1..], t);
    }
  }

  /** Number of occurrences of `c` in `s`. */
  function Count(s: string, c: char): nat {
    if s == [] then 0 else (if s[0] == c then 1 else 0) + Count(s[1..], c)
  }

  /** `a` is obtained from `b` by deleting characters. */
  predicate IsSubsequence<T(==)>(a: seq<T>, b: seq<T>) decreases |b| {
    if a == [] then true
    else if b == [] then false
    else if a[0] == b[0] then IsSubsequence(a[1..], b[1..])
    else IsSubsequence(a, b[1..])
  }

  /** Position of the first `c` in `s`, or `|s|` when there is none (JavaScript's -1). */
  function IndexOf(s: string, c: char): (i: nat)
    ensures i <= |s|
    ensures i < |s| ==> s[i] == c
    ensures forall k :: 0 <= k < i ==> s[k] != c
    ensures i == |s| <==> c !in s
  {
    if s == [] then 0 else if s[0] == c then 0 else 1 + IndexOf(s[1..], c)
  }

  /** The characters of `s` satisfying `keep`, in their original order: a global
      `replace` of the complementary character class with the empty string. */
  function Filter(s: string, keep: char -> bool): (r: string)
    ensures |r| <= |s|
    ensures forall i :: 0 <= i < |r| ==> keep(r[i])
  {
    if s == [] then []
    else if keep(s[0]) then [s[0]] + Filter(s[1..], keep)
    else Filter(s[1..], keep)
  }

  /** Filtering deletes characters without reordering: what is kept is a subsequence, every
      kept character occurs as often as before, and every dropped one not at all. */
  lemma {:induction false} FilterSelects(s: string, keep: char -> bool)
    ensures IsSubsequence(Filter(s, keep), s)
    ensures forall c :: keep(c) ==> Count(Filter(s, keep), c) == Count(s, c)
    ensures forall c :: !keep(c) ==> Count(Filter(s, keep), c) == 0
  {
    if s != [] {
      FilterSelects(s[1..], keep);
      var rest := Filter(s[1..], keep);
      if keep(s[0]) {
        assert Filter(s, keep) == [s[0]] + rest;
        assert ([s[0]] + rest)[1..] == rest;
      }
    }
  }

  /** `s.replace(/\D/g, '')`. */
  function Digits(s: string): (r: string)
    ensures AllDigits(r)
  {
    Filter(s, IsDigit)
  }

  lemma {:induction false} FilterConcat(a: string, b: string, keep: char -> bool)
    ensures Filter(a + b, keep) == Filter(a, keep) + Filter(b, keep)
  {
    if a == [] {
      assert a + b == b;
    } else {
      assert (a + b)[1..] == a[1..] + b;
      FilterConcat(a[1..], b, keep);
    }
  }

  /** Filtering keeps a string whose every character is kept. */
  lemma {:induction false} FilterKeepsAll(s: string, keep: char -> bool)
    requires forall i :: 0 <= i < |s| ==> keep(s[i])
    ensures Filter(s, keep) == s
  {
    if s != [] {
      FilterKeepsAll(s[1..], keep);
    }
  }

  /** A string with no kept character filters to nothing. */
  lemma {:induction false} DropsAll(s: string, keep: char -> bool)
    requires forall i :: 0 <= i < |s| ==> !keep(s[i])
    ensures Filter(s, keep) == []
  {
    if s != [] {
      DropsAll(s[1..], keep);
    }
  }

  lemma FilterIdempotent(s: string, keep: char -> bool)
    ensures Filter(Filter(s, keep), keep) == Filter(s, keep)
  {
    FilterKeepsAll(Filter(s, keep), keep);
  }

  /** Two successive filters are one filter by the conjunction of their classes. */
  lemma {:induction false} FilterCompose(s: string, first: char -> bool, second: char -> bool, both: char -> bool)
    requires forall c :: both(c) == (first(c) && second(c))
    ensures Filter(Filter(s, first), second) == Filter(s, both)
  {
    if s != [] {
      FilterCompose(s[1..], first, second, both);
      if first(s[0]) {
        assert Filter(s, first) == [s[0]] + Filter(s[1..], first);
        FilterConcat([s[0]], Filter(s[1..], first), second);
      }
    }
  }

  lemma DigitsConcat(a: string, b: string)
    ensures Digits(a + b) == Digits(a) + Digits(b)
  {
    FilterConcat(a, b, IsDigit);
  }

  lemma DigitsOfDigits(s: string)
    requires AllDigits(s)
    ensures Digits(s) == s
  {
    FilterKeepsAll(s, IsDigit);
  }

  lemma {:induction false} CountConcat(a: string, b: string, c: char)
    ensures Count(a + b, c) == Count(a, c) + Count(b, c)
  {
    if a == [] {
      assert a + b == b;
    } else {
      assert (a + b)[1..] == a[1..] + b;
      CountConcat(a[1..], b, c);
    }
  }

  /** `Count` relates to positions: exactly one occurrence, at `i`. */
  lemma {:induction false} CountOnce(s: string, c: char, i: nat)
    requires i < |s| && s[i] == c
    ensures Count(s, c) == 1 <==> forall k :: 0 <= k < |s| && k != i ==> s[k] != c
  {
    if i == 0 {
      CountZero(s[1..], c);
      if Count(s, c) == 1 {
        forall k | 0 < k < |s| ensures s[k] != c {
          assert s[1..][k - 1] == s[k];
        }
      }
    } else {
      CountOnce(s[1..], c, i - 1);
      if s[0] == c {
        assert Count(s, c) >= 1 + 1 by { CountPositive(s[1..], c, i - 1); }
      } else {
        forall k | 0 < k < |s| ensures s[k] == s[1..][k - 1] { }
      }
    }
  }

  lemma {:induction false} CountZero(s: string, c: char)
    ensures Count(s, c) == 0 <==> c !in s
  {
    if s != [] {
      CountZero(s[1..], c);
      assert s == [s[0]] + s[1..];
    }
  }

  lemma CountPositive(s: string, c: char, i: nat)
    requires i < |s| && s[i] == c
    ensures Count(s, c) >= 1
  {
    CountZero(s, c);
  }

  /** `String.prototype.trimStart`. */
  function TrimStart(s: string): (r: string)
    ensures |r| <= |s| && r == s[|s| - |r|..]
    ensures r != [] ==> !IsWhitespace(r[0])
    ensures forall i :: 0 <= i < |s| - |r| ==> IsWhitespace(s[i])
  {
    if s != [] && IsWhitespace(s[0]) then TrimStart(s[1..]) else s
  }

  /** `String.prototype.trimEnd`. */
  function TrimEnd(s: string): (r: string)
    ensures |r| <= |s| && r == s[..|r|]
    ensures r != [] ==> !IsWhitespace(r[|r| - 1])
    ensures forall i :: |r| <= i < |s| ==> IsWhitespace(s[i])
  {
    if s != [] && IsWhitespace(s[|s| - 1]) then TrimEnd(s[..|s| - 1]) else s
  }

  /** `String.prototype.trim`. */
  function Trim(s: string): string {
    TrimEnd(TrimStart(s))
  }

  /** Every character is whitespace. */
  predicate Blank(s: string) {
    forall i :: 0 <= i < |s| ==> IsWhitespace(s[i])
  }

  /** `r` is `s` from position `a` on, less whitespace at both ends. */
  predicate TrimsTo(s: string, r: string, a: int) {
    0 <= a <= |s| - |r| && r == s[a..a + |r|] && Blank(s[..a]) && Blank(s[a + |r|..])
  }

  /** Trimming leaves the middle of `s` after removing whitespace from both ends, so the
      result neither starts nor ends with whitespace. */
  lemma TrimShape(s: string)
    ensures Trim(s) == [] || (!IsWhitespace(Trim(s)[0]) && !IsWhitespace(Trim(s)[|Trim(s)| - 1]))
    ensures exists a :: TrimsTo(s, Trim(s), a)
  {
    var start := TrimStart(s);
    var r := TrimEnd(start);
    var a := |s| - |start|;
    TrimStartBlank(s);
    TrimEndBlank(start);
    MiddleSlice(s, start, r, a);
    assert TrimsTo(s, r, a);
  }

  /** A prefix of a suffix is a middle slice. */
  lemma MiddleSlice<T>(s: seq<T>, start: seq<T>, r: seq<T>, a: nat)
    requires a <= |s| && start == s[a..] && |r| <= |start| && r == start[..|r|]
    ensures r == s[a..a + |r|] && start[|r|..] == s[a + |r|..]
  {
  }

  lemma TrimStartBlank(s: string)
    ensures Blank(s[..|s| - |TrimStart(s)|])
  {
    var head := s[..|s| - |TrimStart(s)|];
    forall i | 0 <= i < |head| ensures IsWhitespace(head[i]) { assert head[i] == s[i]; }
  }

  lemma TrimEndBlank(s: string)
    ensures Blank(s[|TrimEnd(s)|..])
  {
    var tail := s[|TrimEnd(s)|..];
    forall i | 0 <= i < |tail| ensures IsWhitespace(tail[i]) { assert tail[i] == s[|TrimEnd(s)| + i]; }
  }

  /** Trimming a trimmed string changes nothing. */
  lemma TrimIdempotent(s: string)
    ensures Trim(Trim(s)) == Trim(s)
  {
    var r := Trim(s);
    assert TrimStart(r) == r;
    assert TrimEnd(r) == r;
  }

  /** A string of digits has nothing to trim. */
  lemma TrimDigits(s: string)
    requires AllDigits(s)
    ensures Trim(s) == s
  {
  }

  // ---- decimal numerals -------------------------------------------------

  function DigitChar(d: nat): (c: char)
    requires d < 10
    ensures IsDigit(c) && c as int - '0' as int == d
  {
    ('0' as int + d) as char
  }

  function DigitValue(c: char): nat
    requires IsDigit(c)
  {
    c as int - '0' as int
  }

  function Pow10(k: nat): nat {
    if k == 0 then 1 else 10 * Pow10(k - 1)
  }

  /** The number a string of decimal digits denotes. */
  function DecimalValue(s: string): nat
    requires AllDigits(s)
  {
    if s == [] then 0 else 10 * DecimalValue(s[..|s| - 1]) + DigitValue(s[|s| - 1])
  }

  /** `n.toString()` for a non-negative integer. */
  function NatToDecimal(n: nat): (r: string)
    ensures 1 <= |r| && AllDigits(r)
    ensures DecimalValue(r) == n
    ensures 1 <= n ==> r[0] != '0'
    decreases n
  {
    if n < 10 then [DigitChar(n)]
    else
      var prefix := NatToDecimal(n / 10);
      var r := prefix + [DigitChar(n % 10)];
      assert r[..|r| - 1] == prefix;
      r
  }

  /** A numeral of `k + 1` digits denotes exactly the numbers in [10^k, 10^(k+1)). */
  lemma {:induction false} DecimalWidth(n: nat, k: nat)
    requires Pow10(k) <= n < Pow10(k + 1)
    ensures |NatToDecimal(n)| == k + 1
  {
    if k > 0 {
      DecimalWidth(n / 10, k - 1);
    }
  }

  /** Bounds on the value of a numeral from its length and leading digit. */
  lemma {:induction false} DecimalBounds(s: string)
    requires AllDigits(s) && |s| >= 1
    ensures DecimalValue(s) < Pow10(|s|)
    ensures s[0] != '0' ==> Pow10(|s| - 1) <= DecimalValue(s)
  {
    if |s| > 1 {
      var p := s[..|s| - 1];
      DecimalBounds(p);
      assert p[0] == s[0];
    }
  }

  /** `toString` inverts `DecimalValue` on numerals without a leading zero. */
  lemma {:induction false} DecimalRoundTrip(s: string)
    requires AllDigits(s) && |s| >= 1 && (|s| > 1 ==> s[0] != '0')
    ensures NatToDecimal(DecimalValue(s)) == s
  {
    var n := DecimalValue(s);
    if |s| == 1 {
      assert s[..0] == [] && DecimalValue(s[..0]) == 0;
      assert n == DigitValue(s[0]) < 10;
      assert s == [DigitChar(n)];
    } else {
      var p := s[..|s| - 1];
      var last := DigitValue(s[|s| - 1]);
      assert p[0] == s[0];
      DecimalBounds(p);
      assert n == 10 * DecimalValue(p) + last && DecimalValue(p) >= 1;
      assert n / 10 == DecimalValue(p) && n % 10 == last;
      DecimalRoundTrip(p);
      assert DigitChar(last) == s[|s| - 1];
      assert s == p + [s[|s| - 1]];
    }
  }
}

=== FILE: wrappers.dfy ===
/** Optional values: JavaScript's `undefined` next to a present value. */
module Wrappers {

  datatype Option<+T> = None | Some(value: T)

  /** Looks `key` up in `m`; absent keys read as `undefined`. */
  function Get<K, V>(m: map<K, V>, key: K): (r: Option<V>)
    ensures r.Some? <==> key in m
    ensures r.Some? ==> r.value == m[key]
  {
    if key in m then Some(m[key]) else None
  }
}
